=== FILE: README.md ===
# Library backend — a Dafny model

This project models the core of an Express/MongoDB "library" backend. Users
register and log in. A login returns a JSON Web Token valid for seven days.
With that token, a user reads and edits their own profile and keeps a private
list of books.

Every book query is scoped to the caller. A book is found only by the pair
(id, owner), so another user's book and a missing one both answer 404.

The model covers:

- the three controllers (auth, user, book);
- the Book schema with its trimming, defaults and timestamps;
- the Joi validators and the `validate` middleware;
- `notFound` and `errorHandler`;
- the three routers and the way `app.js` mounts them;
- the dashboard's `escapeHtml`.

The model is organised as follows:

- **Collections.** A MongoDB collection is a sequence of documents in insertion order (module
  `Collection`):
  - `findOne` returns the first match;
  - `find` is a filter;
  - `save` replaces the matched document;
  - `deleteOne` removes it.
- **Handlers.** A handler returns an `Effect`: its outcome plus the collection it leaves behind.
  - The outcome is either a sent response, or a thrown error together with the value `res.statusCode`
    had at the throw.
  - A library error thrown before any handler set a status keeps Express's default 200, which
    `errorHandler` turns into 500.
- **Routing.**
  - Routes are data: a method, a segment pattern and a middleware chain of `protect`,
    `validate(schema)` and the handler.
  - `App.Serve` runs one request end to end: `express.static` first, then the three routers in
    mounting order, then the root route, then `notFound` and `errorHandler`.
- **Parameters.** Everything the app consults but whose code is not shown is a parameter:
  - in `App.Env`: bcrypt, jsonwebtoken, `JWT_SECRET`, `NODE_ENV`, `protect`, the two auth schemas,
    Joi's e-mail grammar and message renderer, stack traces, the files under public/, and the
    ObjectId cast of `:id`;
  - in `App.Oracle`: the clock, the salt and the fresh ids.

Edge cases the model follows the code on:

- **Whitespace-only title or author.** Such a value passes Joi, whose length rules do not trim, but Mongoose
  trims it to "" and its `required` rule fails. That error reaches `errorHandler` with status 200,
  so the client sees 500 (`BookController.CreateBook`, `BookController.UpdateBook`).
- **Malformed `:id`.** Mongoose throws a CastError, which answers 500 (`App.ById`).
- **Defaults are not written back.** The `validate` middleware does not copy Joi's defaults into
  `req.body`. `createBook`'s `available ?? true` does the defaulting.
- **`updateProfile` uses JavaScript truthiness.** An empty username or email counts as "not sent".
  A body with neither field is refused with 400 before any lookup. Joi accepts the empty body,
  because that schema has no `.min(1)`.
- **A taken email aborts the whole `updateProfile` request.** Nothing is saved, not even a username
  change sent in the same request.
- **Static files win over the root route.** `express.static` runs first, so `GET /` answers with
  public/index.html when that file exists.
- **`updatedAt` moves only on change.** It is refreshed by a save only when some field actually
  changed (Mongoose's `timestamps`).

## Model

| member | source | states |
|---|---|---|
| Collection.FindOne | src/controllers/bookController.js:27 | `findOne` returns a stored document the filter accepts, and nothing exactly when no document is accepted |
| Collection.Where | src/controllers/bookController.js:21 | `find` returns only accepted documents, every accepted document, and nothing not stored |
| Collection.SaveFirst | src/controllers/bookController.js:53 | `save` keeps the length, and as a multiset replaces one copy of the matched document by the new one |
| Collection.SaveFirstAt | src/controllers/bookController.js:53 | `save` rewrites exactly the position of the first match |
| Collection.DeleteFirstAt | src/controllers/bookController.js:67 | `deleteOne` removes exactly the position of the first match |
| Collection.DeleteFirstMultiset | src/controllers/bookController.js:67 | `deleteOne` takes exactly one copy of the matched document out |
| Collection.DeleteFirst | src/controllers/bookController.js:60-67 | `deleteOne` of the found document: one document fewer when the filter matches, the collection unchanged when it does not |
| Collection.FindOneAfterSave | src/controllers/bookController.js:53 | after `save`, `findOne` with the same filter returns the saved document |
| Collection.FindOneAfterDelete | src/controllers/bookController.js:67 | after `deleteOne` of the only match, `findOne` with that filter finds nothing |
| Collection.FindOneAppend | src/controllers/authController.js:17-30 | `findOne` after appending a document: the old match if any, otherwise the new document if it matches |
| Collection.FindOneWhere | src/controllers/bookController.js:27 | a filter that implies the owner filter finds the same document in the owner's subset |
| Collection.WhereSaveOutside | src/controllers/bookController.js:53 | saving another owner's document leaves an owner's `find` result unchanged |
| Collection.WhereDeleteOutside | src/controllers/bookController.js:67 | deleting another owner's document leaves an owner's `find` result unchanged |
| Collection.WhereAppendOutside | src/controllers/bookController.js:8-14 | creating another owner's document leaves an owner's `find` result unchanged |
| Collection.WhereAppendInside | src/controllers/bookController.js:8-14 | creating a document of an owner appends it to that owner's `find` result |
| Text.TrimSpec | src/models/Book.js:5-7 | `trim` removes a whitespace prefix and suffix only, and the result neither starts nor ends with whitespace |
| Text.TrimEmpty | src/models/Book.js:5-6 | a string trims to "" exactly when it is all whitespace |
| Text.TrimIdempotent | src/models/Book.js:5-7 | trimming a trimmed string changes nothing |
| Text.Trim | src/models/Book.js:5-7 | the `trim` setter never lengthens a string, and a non-empty result neither starts nor ends with whitespace (its full meaning is `Text.TrimSpec`) |
| Dashboard.ReplaceAll | public/dashboard.js:32-36 | `replaceAll` of one character by a non-empty string never shortens, and leaves a string without that character unchanged |
| Dashboard.EscapeHtml | public/dashboard.js:30-37 | the chain never shortens and leaves text without special characters unchanged; its meaning as a per-character map is `Dashboard.EscapeHtmlIsPerChar` |
| Dashboard.EscapeHtmlIsPerChar | public/dashboard.js:30-37 | the five chained `replaceAll` calls equal escaping each character on its own, because `&` is replaced first |
| Dashboard.EscapeHtmlConcat | public/dashboard.js:30-37 | escaping distributes over concatenation |
| Dashboard.NoRawMarkup | public/dashboard.js:30-37 | the output holds no raw `<`, `>`, `"` or `'` |
| Dashboard.AmpersandsOpenEntities | public/dashboard.js:30-37 | every `&` of the output opens one of the five entities |
| Dashboard.PlainTextUnchanged | public/dashboard.js:30-37 | a string without special characters is returned unchanged |
| Dashboard.EscapeNeverShortens | public/dashboard.js:30-37 | escaping never shortens, and keeps the length exactly when nothing needed escaping |
| Users.FindByEmailUnique | src/controllers/authController.js:46 | under unique emails, `findOne({ email })` returns the one user holding that email |
| Crypto.GenerateToken | src/controllers/authController.js:7-11 | the token verifies to `{ id }` from issuance until seven days later, and not after |
| ValidateMiddleware.Messages | src/middleware/validateMiddleware.js:8 | one message per detail, in order, each rendered from its detail |
| ValidateMiddleware.Validate | src/middleware/validateMiddleware.js:1-10 | passes exactly when there are no details; otherwise 400 "Validation error" with every detail's message |
| ErrorMiddleware.NotFound | src/middleware/errorMiddleware.js:2-6 | status 404 with the message "Not Found - " followed by the original URL |
| ErrorMiddleware.ErrorHandler | src/middleware/errorMiddleware.js:8-16 | status 200 becomes 500 and any other status is kept; the body carries the message; the stack is omitted exactly in production |
| ErrorMiddleware.NotFoundThenHandler | src/middleware/errorMiddleware.js:2-16 | an unmatched request ends as 404 "Not Found - <url>" |
| Joi.CheckString | src/validators/bookValidator.js:5-7 | at most one detail; none exactly when the key holds a string within the bounds, or is absent and optional |
| Joi.CheckBoolean | src/validators/bookValidator.js:8 | at most one detail; none exactly when the key is absent or holds a JSON boolean, otherwise the one detail is NotBoolean on that key (line 16 is the same rule) |
| Joi.CheckEmail | src/validators/userValidator.js:5 | at most one detail, on the key; none exactly when the key is absent or holds a string the address check accepts |
| Joi.CheckKeys | src/validators/bookValidator.js:17 | `.min(n)` passes exactly when the body has at least n keys |
| BookValidator.CreateBookDetails | src/validators/bookValidator.js:4-9 | no details exactly when title and author (2-100) and category (2-50) are strings and `available` is a boolean or absent |
| BookValidator.UpdateBookDetails | src/validators/bookValidator.js:12-17 | every key optional with the same bounds, and the empty body fails on the key count alone |
| UserValidator.UpdateProfileDetails | src/validators/userValidator.js:3-6 | optional username (3-30) and e-mail; the empty body passes |
| Books.Create | src/models/Book.js:3-12 | creation succeeds exactly when title and author are non-empty after trimming; title, author and a supplied category are stored trimmed, a missing category is "", a supplied `available` is kept and a missing one is true; both timestamps are the creation time; the stored book is well formed |
| Books.Assign | src/controllers/bookController.js:46-51 | supplied fields are assigned through trim; unsupplied fields, id, owner and createdAt are kept; `updatedAt` becomes the save time exactly when some supplied field differs from the stored value (Mongoose `timestamps`, src/models/Book.js:11), and otherwise the book is unchanged |
| Books.AssignWellFormed | src/controllers/bookController.js:46-53 | a save that passes validation keeps a book well formed |
| AuthController.Register | src/controllers/authController.js:14-40 | a taken email is 409 and stores nothing; otherwise exactly one user holding the password's hash is appended, and the reply shows id, username and email |
| AuthController.Login | src/controllers/authController.js:43-62 | succeeds exactly when the email's user exists and the password matches its hash, with a token for that user; every failure is the same 401 |
| AuthController.LoginFailuresAlike | src/controllers/authController.js:46-56 | an unknown email and a wrong password get identical answers |
| AuthController.RegisterKeepsValid | src/controllers/authController.js:17-30 | register keeps user ids and emails unique |
| AuthController.RegisterReplyHidesPassword | src/controllers/authController.js:32-39 | the reply to register does not depend on the password |
| AuthController.RegisterTwice | src/controllers/authController.js:17-21 | a second registration of an email is 409 whatever its other fields |
| AuthController.RegisterThenLogin | src/controllers/authController.js:14-62 | after registering a fresh email, login with the same password yields a token that verifies to the new id for seven days |
| UserController.GetProfile | src/controllers/userController.js:6-13 | 200 with the caller's id, username, email and createdAt |
| UserController.UpdateProfile | src/controllers/userController.js:16-54 | no truthy field is 400 before lookup; a missing caller is 404; for an existing caller with a truthy field, the answer is 400 "Email already in use" exactly when a new email differs from the caller's and some stored user holds it, and is a success exactly otherwise; every failure writes nothing; a success saves the caller with the truthy fields and echoes them |
| UserController.Updated | src/controllers/userController.js:31-42 | the record to save: username and email replaced exactly by the truthy fields, id, password hash and createdAt kept |
| UserController.Save | src/controllers/userController.js:44-53 | `user.save()` then 200 "Profile updated" with the public fields: the collection keeps its length and holds the saved record |
| UserController.SameEmailNeverConflicts | src/controllers/userController.js:35 | resending the caller's own email never conflicts |
| UserController.TakenEmailSavesNothing | src/controllers/userController.js:35-40 | an email held by another user is 400 "Email already in use" and nothing is saved |
| UserController.UpdateProfileFrame | src/controllers/userController.js:31-44 | a successful update changes only the caller's username and email |
| UserController.UpdateProfileKeepsValid | src/controllers/userController.js:16-54 | updateProfile keeps user ids and emails unique |
| BookController.CreateBook | src/controllers/bookController.js:5-17 | 201 exactly when title and author survive trimming; the appended and echoed book is owned by the caller and holds the trimmed title, author and category (or ""), with `available` defaulted to true; otherwise 500 and nothing stored |
| BookController.InsertNewest | src/controllers/bookController.js:21 | inserting adds exactly the one book to the multiset, and the head is the new book or the old head |
| BookController.InsertNewestSorted | src/controllers/bookController.js:21 | inserting into a newest-first list keeps it newest first |
| BookController.SortNewest | src/controllers/bookController.js:21 | the result is ordered newest first and is a permutation of its input |
| BookController.GetMyBooks | src/controllers/bookController.js:20-23 | 200 with a count equal to the list length, newest first, and as a multiset exactly the caller's books |
| BookController.MyBooksAreExactlyMine | src/controllers/bookController.js:21 | a book is listed exactly when it is stored and owned by the caller |
| BookController.GetBookById | src/controllers/bookController.js:26-35 | 200 exactly when a stored book has that id and the caller as owner, and it returns such a book; otherwise 404 |
| BookController.UpdateBook | src/controllers/bookController.js:38-56 | 404 unless the caller owns the id; 500 when a required field trims to ""; otherwise the assigned book replaces the found one and is echoed |
| BookController.DeleteBook | src/controllers/bookController.js:59-70 | 404 exactly when the caller owns no such book; otherwise exactly that book is removed |
| BookController.ReadsSeeOnlyOwnBooks | src/controllers/bookController.js:20-70 | answers to every read, update and delete depend only on the caller's own books |
| BookController.OthersWritesInvisible | src/controllers/bookController.js:5-70 | no create, update or delete by one user changes another user's books |
| BookController.ForeignBookLooksMissing | src/controllers/bookController.js:26-65 | another user's book answers exactly like a missing id |
| BookController.CreateThenGet | src/controllers/bookController.js:5-35 | a created book is what its creator reads back by id |
| BookController.UpdateThenGet | src/controllers/bookController.js:38-56 | after an update, reading the book returns what the update replied |
| BookController.DeleteThenGet | src/controllers/bookController.js:59-70 | after a delete, the book is 404 for its owner |
| BookController.UpdateShowsInMyList | src/controllers/bookController.js:38-56 | after an update, the caller's `find` result has the updated book in the old one's place and is otherwise unchanged |
| BookController.DeleteShowsInMyList | src/controllers/bookController.js:59-70 | after a delete, the caller's `find` result loses exactly that book |
| BookController.EmptyUpdateChangesNothing | src/controllers/bookController.js:46-53 | an update with no fields leaves the collection as it was |
| BookController.CreateKeepsConsistent | src/controllers/bookController.js:8-14 | create keeps book ids unique and every book well formed |
| BookController.UpdateKeepsConsistent | src/controllers/bookController.js:38-56 | update keeps book ids unique and every book well formed |
| BookController.DeleteKeepsConsistent | src/controllers/bookController.js:59-70 | delete keeps book ids unique and every book well formed |
| Routes.AuthRoutes | src/routes/authRoutes.js:9-10 | POST /register and POST /login, each validating its schema before its handler, with no `protect` (stated by `Routes.AuthRoutesWired` and `Routes.ProtectPlacement`) |
| Routes.UserRoutes | src/routes/userRoutes.js:14-17 | GET and PUT /profile behind `protect`, PUT validating the profile schema right after it (stated by `Routes.UserRoutesWired` and `AppProperties.UserRoutesValidateFirst`) |
| Routes.ResourceRoutes | src/routes/resourceRoutes.js:16-20 | the five book routes, each behind `protect`, create and update validating their schemas right after it (stated by `Routes.ResourceRoutesWired` and `AppProperties.ResourceRoutesValidateFirst`) |
| Routes.AppLayers | src/app.js:14-20 | the three routers mounted at /api/auth, /api/users and /api/resource, then the root route (stated by `Routes.Dispatch` and `AppProperties.PrefixRouting`) |
| Routes.Match | src/routes/resourceRoutes.js:18-20 | a pattern matches exactly the paths of its length with equal literals and non-empty `:id`, and binds `:id` |
| Routes.Select | src/routes/resourceRoutes.js:16-20 | the chosen route has the request's method and matches; nothing is chosen exactly when no route accepts |
| Routes.Dispatch | src/app.js:14-20 | the route found lies in a layer whose prefix leads the path; nothing is found exactly when no entered router selects a route |
| Routes.RoutersUnambiguous | src/routes/resourceRoutes.js:16-20 | within each router, two routes of one method never accept the same path |
| Routes.SelectUnique | src/routes/resourceRoutes.js:16-20 | in an unambiguous router the route selected is the only one accepting the request |
| Routes.AuthRoutesWired | src/routes/authRoutes.js:9-10 | each auth route validates the schema its handler destructures |
| Routes.UserRoutesWired | src/routes/userRoutes.js:14-17 | each profile route reaches its handler only through `protect`, and the GET route only reads |
| Routes.ResourceRoutesWired | src/routes/resourceRoutes.js:16-20 | each book route runs `protect`, binds `:id` where its handler reads it, and the GET routes only read |
| Routes.ProtectPlacement | src/routes/resourceRoutes.js:16-20 | every book and profile route runs `protect` first; no auth route runs it |
| App.Finish | src/app.js:24 | a thrown outcome reaches the client through `errorHandler`, with 200 turned into 500; a sent one passes unchanged |
| App.Unmatched | src/app.js:23-24 | 404 "Not Found - <url>" with nothing written |
| App.BookFields | src/controllers/bookController.js:6 | for each of title, author, category and available: the field is defined exactly when the body holds that key with the right JSON type, and then it is the body's value |
| App.Account | src/routes/authRoutes.js:9-10 | register and login run on the validated body; login never writes, a failure writes nothing, and statuses stay among the handlers' own |
| App.AsCaller | src/routes/userRoutes.js:14-17 | each protected handler runs its own controller for the admitted caller: getProfile, updateProfile on the body's username and email, createBook on the body's fields with the caller as owner, getMyBooks, and the `:id` handlers through `App.ById`; read-only handlers never write and a failure writes nothing |
| App.ById | src/routes/resourceRoutes.js:18-20 | an `:id` that does not cast is a thrown CastError (500 after `errorHandler`) with nothing written; otherwise getBookById, updateBook (on the body's fields) and deleteBook run on the cast id for the caller; reading never writes and a failure writes nothing |
| App.Invoke | src/app.js:14-20 | the root handler answers the running text; register and login run on the body; a handler needing a caller with none is a thrown error, otherwise it runs as that caller with the chain's `:id`; read-only handlers never write and a failure writes nothing |
| App.RunChain | src/app.js:14-24 | a read-only chain writes nothing, and every answer has one of the statuses the app can send |
| App.Serve | src/app.js:10-24 | every answer has one of the statuses the app can send, and no GET writes |
| AppProperties.PrefixRouting | src/app.js:14-16 | a path under an API prefix is answered by that router alone |
| AppProperties.OutsideApi | src/app.js:14-20 | a non-empty path outside /api reaches no route |
| AppProperties.PatchNeverRouted | src/app.js:14-20 | no route takes PATCH |
| AppProperties.PatchIsNotFound | src/app.js:23-24 | a PATCH request is always 404 "Not Found - <url>" and writes nothing |
| AppProperties.UnmatchedIsNotFound | src/app.js:23-24 | a request no route takes is 404 "Not Found - <url>" and writes nothing |
| AppProperties.RootRunning | src/app.js:11-20 | GET / answers "Library Backend is running" unless a public index exists |
| AppProperties.ProtectDenialIs401 | src/routes/resourceRoutes.js:16-20 | under /api/users and /api/resource, a request `protect` denies gets 401 and writes nothing |
| AppProperties.InvalidBodyRejected | src/middleware/validateMiddleware.js:1-10 | a body its route's schema rejects never reaches the handler: 400 with every detail and nothing written |
| AppProperties.SchemaRoutesValidateFirst | src/app.js:14-20 | on every mounted route, a handler that reads a body has that body's schema validated first, at once or right after the route's `protect` |
| AppProperties.AuthRoutesValidateFirst | src/routes/authRoutes.js:9-10 | register and login validate their schemas before anything else, with no `protect` |
| AppProperties.UserRoutesValidateFirst | src/routes/userRoutes.js:14-17 | both profile routes start with `protect`, and PUT validates the profile schema right after it |
| AppProperties.ResourceRoutesValidateFirst | src/routes/resourceRoutes.js:16-20 | all five book routes start with `protect`, and create and update validate their schemas right after it |
| AppProperties.InvalidBodyRejectedOnRoute | src/middleware/validateMiddleware.js:1-10 | through the whole app, on any route whose handler reads a body, a body its schema rejects gets 400 with every detail and writes nothing, given `protect` admits the caller where it runs |
| AppProperties.LoginNeverWrites | src/routes/authRoutes.js:10 | a request to /api/auth/login never writes |
| AppProperties.OthersCannotTouchMyBooks | src/routes/resourceRoutes.js:16-20 | a request whose bearer is not the owner leaves every book of that owner as it was |
| AppProperties.RegisterThenLoginServed | src/routes/authRoutes.js:9-10 | through the whole app, register with a fresh email is 201, and a later login with the same password yields a token for the new user |

## Left out

- bcrypt and jsonwebtoken are uninterpreted primitives. The model assumes only that a password matches its own hash, and that a signed token verifies under the same secret until it expires.
- `protect` (src/middleware/authMiddleware.js) is not part of this model. It is a parameter returning the admitted user or a 401 message.
- `asyncHandler` is not part of this model. Its effect, forwarding a rejected promise to `errorHandler`, is built into `App.Finish`.
- src/models/User.js is not part of this model, so its schema, indexes and hooks are unknown here. Users are a record of the fields the controllers read and write.
- The `authValidator` schemas are not part of this model. They are parameters, assumed to admit only bodies that hold the strings register and login destructure (`App.SoundSchemas`).
- Joi's behaviour is modelled only partly. Its message wording is a parameter, and the e-mail grammar is a predicate parameter. Unknown-key rejection, the empty-string rule and type conversion are not modelled: the validators check key presence, JSON type and length only.
- `express.json()` is not modelled: request bodies arrive parsed. URL-to-segment parsing, HEAD, OPTIONS, case-insensitive and trailing-slash matching are not modelled.
- The contents of the files under public/ are not modelled. Only whether a GET path names one matters.
- The front-end scripts are not modelled, apart from `escapeHtml`. Its `String(s)` coercion is left out because the model takes a string.
- Concurrency is not modelled. Requests are served one at a time, so the race between two registrations of the same email is out of scope.
- A missing `JWT_SECRET` is not modelled: the secret is always a string.
- Stack traces are a parameter.
- The Mongoose CastError, ValidationError and TypeError messages are abbreviated to their leading text.
- BookController.SortNewest: stated as ordered and a permutation; the order among equal `createdAt` values is that of a stable sort, which MongoDB does not promise.
- The user collection is a sequence; unique ids and emails (`Users.Valid`) are an invariant the controllers are proved to keep, not a database constraint, since the User model is unknown here.
- Joi.CheckString: string lengths count Unicode code points, while Joi's `.min`/`.max` count UTF-16 code units. For a string with characters outside the Basic Multilingual Plane the model can reject what Joi accepts: a title of one emoji (two UTF-16 units) passes `min(2)` in Joi but gets TooShort here. Strings are `seq<char>` with no UTF-16 encoding.

=== FILE: app.dfy ===
/**
  `app.js` end to end: `express.static` first, then the three routers in
  mounting order, then the root route, then `notFound` and `errorHandler`.
  One request is served against the two collections and yields a response and
  the collections it leaves behind.
 */
module App {
  import opened Common
  import opened Users
  import opened Books
  import opened Crypto
  import opened Responses
  import opened Routes
  import ValidateMiddleware
  import ErrorMiddleware
  import BookValidator
  import UserValidator
  import AuthController
  import UserController
  import BookController

  /** A parsed request: method, path segments, the raw URL for messages, the JSON body, headers. */
  datatype Request = Request(
    verb: Method,
    path: seq<string>,
    originalUrl: string,
    body: Body,
    authorization: Option<string>)

  /** The two MongoDB collections. */
  datatype Db = Db(users: seq<User>, books: seq<Book>)

  /** What `protect` decides: the authenticated user, or a 401 with a message. */
  datatype Guard = Admit(user: User) | Deny(message: string)

  /**
    Everything the app consults that is not shown: the crypto libraries and
    `JWT_SECRET`, `NODE_ENV`, `protect`, the two auth schemas, Joi's email rule
    and message formatter, stack traces, the files under public/, and the
    ObjectId cast of `:id` (None when the string is not a valid ObjectId).
   */
  datatype Env = Env(
    crypto: Primitives,
    secret: string,
    nodeEnv: Option<string>,
    protect: (Request, seq<User>) -> Guard,
    registerSchema: Body -> seq<Detail>,
    loginSchema: Body -> seq<Detail>,
    isEmail: string -> bool,
    render: Detail -> string,
    trace: Error -> string,
    publicFile: seq<string> -> Option<string>,
    castId: string -> Option<BookId>)

  /** The clock, bcrypt's salt and the ObjectIds MongoDB would assign to new documents. */
  datatype Oracle = Oracle(now: Millis, salt: Salt, userId: UserId, bookId: BookId)

  /** The response and the collections after one request. */
  datatype Reply = Reply(response: Response, db: Db)

  const RunningText := "Library Backend is running"

  /** The TypeError a handler throws when `req.user` was never set. */
  const NoCaller := "Cannot read properties of undefined (reading '_id')"

  /** The CastError Mongoose throws for a malformed `:id`. */
  const CastFailed := "Cast to ObjectId failed"

  /** The auth schemas admit only bodies holding the strings register and login destructure. */
  ghost predicate SoundSchemas(env: Env)
  {
    && (forall b: Body :: env.registerSchema(b) == [] ==>
          StringAt(b, "username").Some? && StringAt(b, "email").Some? && StringAt(b, "password").Some?)
    && (forall b: Body :: env.loginSchema(b) == [] ==>
          StringAt(b, "email").Some? && StringAt(b, "password").Some?)
  }

  /** The ids the oracle hands out are not yet taken. */
  predicate Fresh(db: Db, oracle: Oracle)
  {
    Users.IdFresh(db.users, oracle.userId) && Books.IdFresh(db.books, oracle.bookId)
  }

  /** Joi's details for one schema. */
  function Details(env: Env, s: Schema, body: Body): seq<Detail>
  {
    match s
    case RegisterSchema => env.registerSchema(body)
    case LoginSchema => env.loginSchema(body)
    case UpdateProfileSchema => UserValidator.UpdateProfileDetails(body, env.isEmail)
    case CreateBookSchema => BookValidator.CreateBookDetails(body)
    case UpdateBookSchema => BookValidator.UpdateBookDetails(body)
  }

  /** The book fields of a body; a key that is absent or of another type is undefined. */
  function BookFields(body: Body): (f: Fields)
    ensures f.title.Some? <==> "title" in body && body["title"].JString?
    ensures f.title.Some? ==> body["title"] == JString(f.title.value)
    ensures f.author.Some? <==> "author" in body && body["author"].JString?
    ensures f.author.Some? ==> body["author"] == JString(f.author.value)
    ensures f.category.Some? <==> "category" in body && body["category"].JString?
    ensures f.category.Some? ==> body["category"] == JString(f.category.value)
    ensures f.available.Some? <==> "available" in body && body["available"].JBool?
    ensures f.available.Some? ==> body["available"] == JBool(f.available.value)
  {
    Fields(StringAt(body, "title"), StringAt(body, "author"), StringAt(body, "category"), BoolAt(body, "available"))
  }

  /** A handler's outcome reaches the client directly, or through `errorHandler`. */
  function Finish(env: Env, o: Outcome, db: Db): (r: Reply)
    ensures r.db == db
    ensures o.Sent? ==> r.response == o.response
    ensures o.Thrown? ==> r.response.body.ErrorBody? && r.response.body.message == o.error.message
    ensures o.Thrown? && o.status != 200 ==> r.response.status == o.status
    ensures o.Thrown? && o.status == 200 ==> r.response.status == 500
  {
    match o
    case Sent(resp) => Reply(resp, db)
    case Thrown(status, err) => Reply(ErrorMiddleware.ErrorHandler(err, status, env.nodeEnv, env.trace(err)), db)
  }

  /** `notFound` then `errorHandler`. */
  function Unmatched(env: Env, db: Db, req: Request): (r: Reply)
    ensures r.db == db && r.response.status == 404
    ensures r.response.body.ErrorBody? && r.response.body.message == "Not Found - " + req.originalUrl
  {
    var raised := ErrorMiddleware.NotFound(req.originalUrl);
    Finish(env, Thrown(raised.status, raised.error), db)
  }

  /** The statuses handlers send and throw. */
  predicate HandlerStatus(o: Outcome)
  {
    if o.Sent? then o.response.status in {200, 201} else o.status in {200, 400, 401, 404, 409}
  }

  /** register and login, which read only the validated body. */
  function Account(env: Env, oracle: Oracle, db: Db, body: Body, h: Handler): (e: Effect<Db>)
    requires h == Register || h == Login
    requires SoundSchemas(env) && Fresh(db, oracle)
    requires Details(env, Needs(h).value, body) == []
    ensures h == Login ==> e.store == db
    ensures e.outcome.Thrown? ==> e.store == db
    ensures HandlerStatus(e.outcome)
  {
    match h
    case Register =>
      var r := AuthController.Register(db.users, StringAt(body, "username").value, StringAt(body, "email").value,
                                       StringAt(body, "password").value, env.crypto, oracle.salt, oracle.userId, oracle.now);
      Effect(r.outcome, db.(users := r.store))
    case Login =>
      Effect(AuthController.Login(db.users, StringAt(body, "email").value, StringAt(body, "password").value,
                                  env.crypto, env.secret, oracle.now), db)
  }

  /** The handlers behind `protect`, run for the caller `me`. */
  function AsCaller(env: Env, oracle: Oracle, db: Db, req: Request, h: Handler, me: User, param: string): (e: Effect<Db>)
    requires ReadsUser(h) && Books.IdFresh(db.books, oracle.bookId)
    ensures !Writes(h) ==> e.store == db
    ensures e.outcome.Thrown? ==> e.store == db
    ensures HandlerStatus(e.outcome)
    ensures h == GetProfile ==> e == Effect(UserController.GetProfile(me), db)
    ensures h == UpdateProfile ==>
              var r := UserController.UpdateProfile(db.users, me.id, StringAt(req.body, "username"), StringAt(req.body, "email"));
              e == Effect(r.outcome, db.(users := r.store))
    ensures h == CreateBook ==>
              var r := BookController.CreateBook(db.books, me.id, oracle.bookId, oracle.now, BookFields(req.body));
              e == Effect(r.outcome, db.(books := r.store))
    ensures h == GetMyBooks ==> e == Effect(BookController.GetMyBooks(db.books, me.id), db)
    ensures ReadsId(h) ==> e == ById(env, oracle, db, req, h, me, param)
  {
    match h
    case GetProfile => Effect(UserController.GetProfile(me), db)
    case UpdateProfile =>
      var r := UserController.UpdateProfile(db.users, me.id, StringAt(req.body, "username"), StringAt(req.body, "email"));
      Effect(r.outcome, db.(users := r.store))
    case CreateBook =>
      var r := BookController.CreateBook(db.books, me.id, oracle.bookId, oracle.now, BookFields(req.body));
      Effect(r.outcome, db.(books := r.store))
    case GetMyBooks => Effect(BookController.GetMyBooks(db.books, me.id), db)
    case GetBookById => ById(env, oracle, db, req, h, me, param)
    case UpdateBook => ById(env, oracle, db, req, h, me, param)
    case DeleteBook => ById(env, oracle, db, req, h, me, param)
  }

  /** The handlers that look a book up by `:id`: a malformed id is a CastError, which reaches errorHandler as 500. */
  function ById(env: Env, oracle: Oracle, db: Db, req: Request, h: Handler, me: User, param: string): (e: Effect<Db>)
    requires ReadsId(h)
    ensures h == GetBookById ==> e.store == db
    ensures e.outcome.Thrown? ==> e.store == db
    ensures HandlerStatus(e.outcome)
    ensures env.castId(param).None? ==> e == Effect(Crash(CastFailed), db)
    ensures env.castId(param).Some? && h == GetBookById ==>
              e == Effect(BookController.GetBookById(db.books, env.castId(param).value, me.id), db)
    ensures env.castId(param).Some? && h == UpdateBook ==>
              var r := BookController.UpdateBook(db.books, env.castId(param).value, me.id, BookFields(req.body), oracle.now);
              e == Effect(r.outcome, db.(books := r.store))
    ensures env.castId(param).Some? && h == DeleteBook ==>
              var r := BookController.DeleteBook(db.books, env.castId(param).value, me.id);
              e == Effect(r.outcome, db.(books := r.store))
  {
    match env.castId(param)
    case None => Effect(Crash(CastFailed), db)
    case Some(id) =>
      if h == GetBookById then Effect(BookController.GetBookById(db.books, id, me.id), db)
      else if h == UpdateBook then
        var r := BookController.UpdateBook(db.books, id, me.id, BookFields(req.body), oracle.now);
        Effect(r.outcome, db.(books := r.store))
      else
        var r := BookController.DeleteBook(db.books, id, me.id);
        Effect(r.outcome, db.(books := r.store))
  }

  /**
    Run one handler with the caller `protect` attached, if any, and the bound
    `:id`. A handler that reads `req.user` when nothing set it throws a
    TypeError, which reaches errorHandler as 500.
   */
  function Invoke(env: Env, oracle: Oracle, db: Db, req: Request, h: Handler,
                  caller: Option<User>, param: string, validated: set<Schema>): (e: Effect<Db>)
    requires SoundSchemas(env) && Fresh(db, oracle)
    requires Needs(h).Some? ==> Needs(h).value in validated
    requires forall s :: s in validated ==> Details(env, s, req.body) == []
    ensures !Writes(h) ==> e.store == db
    ensures e.outcome.Thrown? ==> e.store == db
    ensures HandlerStatus(e.outcome)
    ensures h == Root ==> e == Effect(Sent(Response(200, Text(RunningText))), db)
    ensures h == Register || h == Login ==> e == Account(env, oracle, db, req.body, h)
    ensures ReadsUser(h) && caller.None? ==> e == Effect(Crash(NoCaller), db)
    ensures ReadsUser(h) && caller.Some? ==> e == AsCaller(env, oracle, db, req, h, caller.value, param)
  {
    if h == Root then Effect(Sent(Response(200, Text(RunningText))), db)
    else if h == Register || h == Login then Account(env, oracle, db, req.body, h)
    else if caller.None? then Effect(Crash(NoCaller), db)
    else AsCaller(env, oracle, db, req, h, caller.value, param)
  }

  /**
    Run a route's middleware chain. `protect` either attaches the caller or
    ends the request with 401; `validate` either passes or answers 400; the
    handler's outcome goes through `errorHandler` when it throws.
   */
  function RunChain(env: Env, oracle: Oracle, db: Db, req: Request, chain: seq<Step>,
                    caller: Option<User>, param: string, validated: set<Schema>): (r: Reply)
    requires SoundSchemas(env) && Fresh(db, oracle)
    requires Ready(chain, validated)
    requires forall s :: s in validated ==> Details(env, s, req.body) == []
    ensures ReadOnly(chain) ==> r.db == db
    ensures r.response.status in {200, 201, 400, 401, 404, 409, 500}
    decreases |chain|
  {
    if chain == [] then Unmatched(env, db, req)
    else
      match chain[0]
      case Protect =>
        (match env.protect(req, db.users)
         case Deny(m) => Finish(env, Fail(401, m), db)
         case Admit(u) =>
           assert ReadOnly(chain) ==> ReadOnly(chain[1..]) by {
             if ReadOnly(chain) {
               forall k | 0 <= k < |chain[1..]| && chain[1..][k].Handle? ensures !Writes(chain[1..][k].handler) {
                 assert chain[1..][k] == chain[k + 1];
               }
             }
           }
           RunChain(env, oracle, db, req, chain[1..], Some(u), param, validated))
      case Validate(s) =>
        (match ValidateMiddleware.Validate(Details(env, s, req.body), env.render)
         case Respond(resp) => Reply(resp, db)
         case Next =>
           assert ReadOnly(chain) ==> ReadOnly(chain[1..]) by {
             if ReadOnly(chain) {
               forall k | 0 <= k < |chain[1..]| && chain[1..][k].Handle? ensures !Writes(chain[1..][k].handler) {
                 assert chain[1..][k] == chain[k + 1];
               }
             }
           }
           RunChain(env, oracle, db, req, chain[1..], caller, param, validated + {s}))
      case Handle(h) =>
        var e := Invoke(env, oracle, db, req, h, caller, param, validated);
        Finish(env, e.outcome, e.store)
  }

  /** The whole app for one request. */
  function Serve(env: Env, oracle: Oracle, db: Db, req: Request): (r: Reply)
    requires SoundSchemas(env) && Fresh(db, oracle)
    ensures r.response.status in {200, 201, 400, 401, 404, 409, 500}
    ensures req.verb == GET ==> r.db == db
  {
    if req.verb == GET && env.publicFile(req.path).Some? then
      Reply(Response(200, StaticFile(env.publicFile(req.path).value)), db)
    else
      match Dispatch(AppLayers, req.verb, req.path)
      case None => Unmatched(env, db, req)
      case Some(hit) =>
        AppWellWired();
        RunChain(env, oracle, db, req, hit.route.chain, None, hit.param, {})
  }
}

=== FILE: app_properties.dfy ===
/**
  Properties of the whole pipeline: which router a prefix reaches, what an
  unmatched request gets, what `protect` and `validate` stop, and that one
  user's requests never touch another user's books.
 */
module AppProperties {
  import opened Common
  import opened Collection
  import opened Users
  import opened Books
  import opened Crypto
  import opened Responses
  import opened Routes
  import opened App
  import ValidateMiddleware
  import AuthController
  import BookController

  /** The router mounted at each API prefix. */
  function Mounted(k: nat): (routes: seq<Route>)
    requires k < 3
    ensures routes == AppLayers[k].routes
  {
    [AuthRoutes, UserRoutes, ResourceRoutes][k]
  }

  /** The root route needs the empty path. */
  lemma RootNeedsEmptyPath(verb: Method, path: seq<string>)
    requires path != []
    ensures Dispatch(AppLayers[3..], verb, path).None?
  {
    var tail := AppLayers[3..];
    assert tail == [Layer([], [RootRoute])];
    assert !Accepts(verb, path)(RootRoute);
    DispatchEnters(tail, verb, path);
  }

  /** The three API prefixes differ in their second segment. */
  lemma ApiPrefixesApart(j: nat, k: nat, path: seq<string>)
    requires j < 3 && k < 3 && j != k && Under(AppLayers[k].prefix, path)
    ensures !Under(AppLayers[j].prefix, path)
  {
    var pj, pk := AppLayers[j].prefix, AppLayers[k].prefix;
    assert |pj| == 2 && |pk| == 2 && pj[1] != pk[1];
    assert path[..2][1] == path[1];
  }

  /**
    A path under /api/auth, /api/users or /api/resource is answered by that
    router alone: whatever it selects runs, and what it does not select falls
    through every later layer.
   */
  lemma PrefixRouting(k: nat, verb: Method, path: seq<string>)
    requires k < 3 && Under(AppLayers[k].prefix, path)
    ensures Dispatch(AppLayers, verb, path) == Select(Mounted(k), verb, path[2..])
  {
    var L := AppLayers;
    assert |L[k].prefix| == 2;
    RootNeedsEmptyPath(verb, path);
    for j := 0 to 3
      invariant j <= k ==> Dispatch(L, verb, path) == Dispatch(L[j..], verb, path)
      invariant j > k ==> Dispatch(L, verb, path) == Select(L[k].routes, verb, path[2..]) || 
                            (Select(L[k].routes, verb, path[2..]).None? && Dispatch(L, verb, path) == Dispatch(L[j..], verb, path))
    {
      assert L[j..][1..] == L[j + 1..];
      if j == k {
        DispatchEnters(L[j..], verb, path);
      } else {
        ApiPrefixesApart(j, k, path);
        DispatchSkips(L[j..], verb, path);
      }
    }
  }

  /** A path that does not start with "api" reaches no router; only the root route can match it. */
  lemma OutsideApi(verb: Method, path: seq<string>)
    requires path != [] && path[0] != "api"
    ensures Dispatch(AppLayers, verb, path).None?
  {
    var L := AppLayers;
    RootNeedsEmptyPath(verb, path);
    for j := 0 to 3
      invariant Dispatch(L, verb, path) == Dispatch(L[j..], verb, path)
    {
      assert L[j].prefix[0] == "api";
      assert !Under(L[j].prefix, path) by {
        if |L[j].prefix| <= |path| { assert path[..|L[j].prefix|][0] == path[0]; }
      }
      DispatchSkips(L[j..], verb, path);
      assert L[j..][1..] == L[j + 1..];
    }
  }

  /** No route accepts PATCH. */
  lemma PatchNeverRouted(path: seq<string>)
    ensures Dispatch(AppLayers, PATCH, path).None?
  {
    assert forall j :: 0 <= j < |AuthRoutes| ==> AuthRoutes[j].verb != PATCH;
    assert forall j :: 0 <= j < |UserRoutes| ==> UserRoutes[j].verb != PATCH;
    assert forall j :: 0 <= j < |ResourceRoutes| ==> ResourceRoutes[j].verb != PATCH;
    DispatchNoVerb(AppLayers, PATCH, path);
  }

  /** A request no public file answers runs the chain of the route it is dispatched to. */
  lemma ServeRouted(env: Env, oracle: Oracle, db: Db, req: Request)
    requires SoundSchemas(env) && Fresh(db, oracle)
    requires req.verb == GET ==> env.publicFile(req.path).None?
    requires Dispatch(AppLayers, req.verb, req.path).Some?
    ensures Ready(Dispatch(AppLayers, req.verb, req.path).value.route.chain, {})
    ensures var hit := Dispatch(AppLayers, req.verb, req.path).value;
            Serve(env, oracle, db, req) == RunChain(env, oracle, db, req, hit.route.chain, None, hit.param, {})
  {
    AppWellWired();
  }

  /**
    A request no route takes (and no public file answers) falls through to
    `notFound` and `errorHandler`: 404 "Not Found - <url>", nothing written.
   */
  lemma UnmatchedIsNotFound(env: Env, oracle: Oracle, db: Db, req: Request)
    requires SoundSchemas(env) && Fresh(db, oracle)
    requires req.verb == GET ==> env.publicFile(req.path).None?
    requires Dispatch(AppLayers, req.verb, req.path).None?
    ensures var r := Serve(env, oracle, db, req);
            && r.db == db && r.response.status == 404
            && r.response.body.ErrorBody? && r.response.body.message == "Not Found - " + req.originalUrl
  {
  }

  /** A PATCH request, which no router registers, always gets the 404 of `notFound`. */
  lemma PatchIsNotFound(env: Env, oracle: Oracle, db: Db, req: Request)
    requires SoundSchemas(env) && Fresh(db, oracle)
    requires req.verb == PATCH
    ensures var r := Serve(env, oracle, db, req);
            && r.db == db && r.response.status == 404
            && r.response.body.ErrorBody? && r.response.body.message == "Not Found - " + req.originalUrl
  {
    PatchNeverRouted(req.path);
    UnmatchedIsNotFound(env, oracle, db, req);
  }

  /** GET / answers "Library Backend is running", unless public/ holds an index for it. */
  lemma RootRunning(env: Env, oracle: Oracle, db: Db, req: Request)
    requires SoundSchemas(env) && Fresh(db, oracle)
    requires req.verb == GET && req.path == [] && env.publicFile([]).None?
    ensures Serve(env, oracle, db, req) == Reply(Response(200, Text(RunningText)), db)
  {
    RootDispatch();
    ServeRouted(env, oracle, db, req);
    HandleOnly(env, oracle, db, req, Root, None, "", {});
  }

  /** A chain that is just a handler runs it and passes its outcome through `errorHandler`. */
  lemma HandleOnly(env: Env, oracle: Oracle, db: Db, req: Request, h: Handler,
                   caller: Option<User>, param: string, validated: set<Schema>)
    requires SoundSchemas(env) && Fresh(db, oracle)
    requires Needs(h).Some? ==> Needs(h).value in validated
    requires forall s :: s in validated ==> Details(env, s, req.body) == []
    ensures var e := Invoke(env, oracle, db, req, h, caller, param, validated);
            RunChain(env, oracle, db, req, [Handle(h)], caller, param, validated) == Finish(env, e.outcome, e.store)
  {
  }

  /** GET / falls past the three routers to the root route. */
  lemma RootDispatch()
    ensures Dispatch(AppLayers, GET, []) == Some(Hit(RootRoute, ""))
  {
    var L := AppLayers;
    for j := 0 to 3
      invariant Dispatch(L, GET, []) == Dispatch(L[j..], GET, [])
    {
      DispatchSkips(L[j..], GET, []);
      assert L[j..][1..] == L[j + 1..];
    }
    assert Accepts(GET, [])(RootRoute);
    DispatchEnters(L[3..], GET, []);
  }

  /**
    Under /api/users and /api/resource, a request `protect` turns away gets
    401 with the guard's message, and nothing is written.
   */
  lemma ProtectDenialIs401(env: Env, oracle: Oracle, db: Db, req: Request, k: nat, m: string)
    requires SoundSchemas(env) && Fresh(db, oracle)
    requires k == 1 || k == 2
    requires Under(AppLayers[k].prefix, req.path)
    requires Dispatch(AppLayers, req.verb, req.path).Some?
    requires req.verb == GET ==> env.publicFile(req.path).None?
    requires env.protect(req, db.users) == Deny(m)
    ensures var r := Serve(env, oracle, db, req);
            && r.db == db && r.response.status == 401
            && r.response.body.ErrorBody? && r.response.body.message == m
  {
    var hit := Dispatch(AppLayers, req.verb, req.path).value;
    GuardedPrefix(k, req.verb, req.path);
    ServeRouted(env, oracle, db, req);
    ChainDenied(env, oracle, db, req, hit.route.chain, hit.param, m);
  }

  /** Whatever /api/users and /api/resource dispatch to runs `protect` first. */
  lemma GuardedPrefix(k: nat, verb: Method, path: seq<string>)
    requires k == 1 || k == 2
    requires Under(AppLayers[k].prefix, path)
    requires Dispatch(AppLayers, verb, path).Some?
    ensures var chain := Dispatch(AppLayers, verb, path).value.route.chain;
            chain != [] && chain[0] == Protect
  {
    PrefixRouting(k, verb, path);
    ProtectPlacement();
    var rt := Dispatch(AppLayers, verb, path).value.route;
    assert rt in Mounted(k);
    assert rt in UserRoutes || rt in ResourceRoutes;
  }

  /** A chain that starts with `protect` ends with 401 when the guard denies. */
  lemma ChainDenied(env: Env, oracle: Oracle, db: Db, req: Request, chain: seq<Step>, param: string, m: string)
    requires SoundSchemas(env) && Fresh(db, oracle)
    requires Ready(chain, {}) && chain != [] && chain[0] == Protect
    requires env.protect(req, db.users) == Deny(m)
    ensures RunChain(env, oracle, db, req, chain, None, param, {}) == Finish(env, Fail(401, m), db)
  {
  }

  /** The chain starts by validating `s`, possibly right after `protect` let the request through. */
  predicate ValidatesFirst(chain: seq<Step>, s: Schema, admitted: bool)
  {
    (|chain| > 0 && chain[0] == Validate(s)) || (admitted && |chain| > 1 && chain[0] == Protect && chain[1] == Validate(s))
  }

  /**
    A body its route's schema rejects never reaches the handler: the answer is
    400 "Validation error" with one message per detail, and nothing is written.
   */
  lemma InvalidBodyRejected(env: Env, oracle: Oracle, db: Db, req: Request, s: Schema)
    requires SoundSchemas(env) && Fresh(db, oracle)
    requires req.verb == GET ==> env.publicFile(req.path).None?
    requires Dispatch(AppLayers, req.verb, req.path).Some?
    requires ValidatesFirst(Dispatch(AppLayers, req.verb, req.path).value.route.chain, s, env.protect(req, db.users).Admit?)
    requires Details(env, s, req.body) != []
    ensures var r := Serve(env, oracle, db, req);
            && r.db == db && r.response.status == 400
            && r.response.body == ValidationErrors("Validation error", ValidateMiddleware.Messages(Details(env, s, req.body), env.render))
  {
    var hit := Dispatch(AppLayers, req.verb, req.path).value;
    ServeRouted(env, oracle, db, req);
    var chain := hit.route.chain;
    if chain[0] == Protect {
      var u := env.protect(req, db.users).user;
      assert RunChain(env, oracle, db, req, chain, None, hit.param, {})
          == RunChain(env, oracle, db, req, chain[1..], Some(u), hit.param, {});
      ValidationStops(env, oracle, db, req, chain[1..], Some(u), hit.param, s);
    } else {
      ValidationStops(env, oracle, db, req, chain, None, hit.param, s);
    }
  }

  /**
    A route whose handler reads a body validates that body's schema first:
    at once, or right after a `protect` that is on the route.
   */
  ghost predicate BodyFirst(rt: Route)
  {
    forall h :: Handle(h) in rt.chain && Needs(h).Some? ==> ValidatesFirst(rt.chain, Needs(h).value, Protect in rt.chain)
  }

  /**
    Every mounted route whose handler reads a body validates that body's schema
    first: the auth routes at once, the book and profile routes right after `protect`.
   */
  lemma SchemaRoutesValidateFirst(k: nat)
    requires k < |AppLayers|
    ensures forall rt :: rt in AppLayers[k].routes ==> BodyFirst(rt)
  {
    if k == 0 { AuthRoutesValidateFirst(); }
    else if k == 1 { UserRoutesValidateFirst(); }
    else if k == 2 { ResourceRoutesValidateFirst(); }
    else { assert AppLayers[k].routes == [RootRoute]; }
  }

  lemma AuthRoutesValidateFirst()
    ensures forall rt :: rt in AuthRoutes ==> BodyFirst(rt) && rt.chain[0] != Protect
  {
    forall rt | rt in AuthRoutes ensures BodyFirst(rt) && rt.chain[0] != Protect {
      if rt == AuthRoutes[0] { CheckedOnly(rt, RegisterSchema, Register); }
      else { CheckedOnly(rt, LoginSchema, Login); }
    }
  }

  lemma UserRoutesValidateFirst()
    ensures forall rt :: rt in UserRoutes ==> BodyFirst(rt) && rt.chain[0] == Protect
  {
    forall rt | rt in UserRoutes ensures BodyFirst(rt) && rt.chain[0] == Protect {
      if rt == UserRoutes[0] { GuardedOnly(rt, GetProfile); }
      else { GuardedThenChecked(rt, UpdateProfileSchema, UpdateProfile); }
    }
  }

  lemma ResourceRoutesValidateFirst()
    ensures forall rt :: rt in ResourceRoutes ==> BodyFirst(rt) && rt.chain[0] == Protect
  {
    forall rt | rt in ResourceRoutes ensures BodyFirst(rt) && rt.chain[0] == Protect {
      var r := ResourceRoutes;
      if rt == r[0] { GuardedThenChecked(rt, CreateBookSchema, CreateBook); }
      else if rt == r[1] { GuardedOnly(rt, GetMyBooks); }
      else if rt == r[2] { GuardedOnly(rt, GetBookById); }
      else if rt == r[3] { GuardedThenChecked(rt, UpdateBookSchema, UpdateBook); }
      else { GuardedOnly(rt, DeleteBook); }
    }
  }

  lemma CheckedOnly(rt: Route, s: Schema, h: Handler)
    requires rt.chain == [Validate(s), Handle(h)] && Needs(h) == Some(s)
    ensures BodyFirst(rt) && rt.chain[0] != Protect
  {
    assert Protect !in rt.chain;
  }

  lemma GuardedOnly(rt: Route, h: Handler)
    requires rt.chain == [Protect, Handle(h)] && Needs(h).None?
    ensures BodyFirst(rt) && rt.chain[0] == Protect
  {
  }

  lemma GuardedThenChecked(rt: Route, s: Schema, h: Handler)
    requires rt.chain == [Protect, Validate(s), Handle(h)] && Needs(h) == Some(s)
    ensures BodyFirst(rt) && rt.chain[0] == Protect
  {
  }

  /**
    Through the whole app, a body that the schema of the reached handler rejects
    gets 400 with every detail and writes nothing, on every route that reads a body.
   */
  lemma InvalidBodyRejectedOnRoute(env: Env, oracle: Oracle, db: Db, req: Request, h: Handler)
    requires SoundSchemas(env) && Fresh(db, oracle)
    requires req.verb == GET ==> env.publicFile(req.path).None?
    requires Dispatch(AppLayers, req.verb, req.path).Some?
    requires Handle(h) in Dispatch(AppLayers, req.verb, req.path).value.route.chain && Needs(h).Some?
    requires Protect in Dispatch(AppLayers, req.verb, req.path).value.route.chain ==> env.protect(req, db.users).Admit?
    requires Details(env, Needs(h).value, req.body) != []
    ensures var r := Serve(env, oracle, db, req);
            && r.db == db && r.response.status == 400
            && r.response.body == ValidationErrors("Validation error", ValidateMiddleware.Messages(Details(env, Needs(h).value, req.body), env.render))
  {
    var rt := Dispatch(AppLayers, req.verb, req.path).value.route;
    var i :| 0 <= i < |AppLayers| && rt in AppLayers[i].routes;
    SchemaRoutesValidateFirst(i);
    assert BodyFirst(rt);
    assert ValidatesFirst(rt.chain, Needs(h).value, env.protect(req, db.users).Admit?);
    InvalidBodyRejected(env, oracle, db, req, Needs(h).value);
  }

  /** A chain that starts with `validate(s)` on a body `s` rejects answers 400 and writes nothing. */
  lemma ValidationStops(env: Env, oracle: Oracle, db: Db, req: Request, chain: seq<Step>,
                        caller: Option<User>, param: string, s: Schema)
    requires SoundSchemas(env) && Fresh(db, oracle)
    requires Ready(chain, {}) && chain != [] && chain[0] == Validate(s)
    requires Details(env, s, req.body) != []
    ensures var r := RunChain(env, oracle, db, req, chain, caller, param, {});
            && r.db == db && r.response.status == 400
            && r.response.body == ValidationErrors("Validation error", ValidateMiddleware.Messages(Details(env, s, req.body), env.render))
  {
  }

  /** The route /api/auth/login selects, if any, only reads. */
  lemma LoginRouteReadOnly(verb: Method)
    ensures Dispatch(AppLayers, verb, ["api", "auth", "login"]).Some? ==>
              ReadOnly(Dispatch(AppLayers, verb, ["api", "auth", "login"]).value.route.chain)
  {
    var path := ["api", "auth", "login"];
    PrefixRouting(0, verb, path);
    assert path[2..] == ["login"];
    assert !Accepts(verb, ["login"])(AuthRoutes[0]);
  }

  /** Logging in, successfully or not, never writes. */
  lemma LoginNeverWrites(env: Env, oracle: Oracle, db: Db, req: Request)
    requires SoundSchemas(env) && Fresh(db, oracle)
    requires req.path == ["api", "auth", "login"]
    ensures Serve(env, oracle, db, req).db == db
  {
    LoginRouteReadOnly(req.verb);
  }

  /** A book handler run for someone other than `owner` leaves `owner`'s books as they were. */
  lemma AsCallerKeepsOthersBooks(env: Env, oracle: Oracle, db: Db, req: Request, h: Handler,
                                 me: User, param: string, owner: UserId)
    requires ReadsUser(h) && Books.IdFresh(db.books, oracle.bookId)
    requires me.id != owner
    ensures Where(AsCaller(env, oracle, db, req, h, me, param).store.books, OwnedBy(owner))
         == Where(db.books, OwnedBy(owner))
  {
    if h == CreateBook {
      BookController.OthersWritesInvisible(db.books, owner, me.id, oracle.bookId, BookFields(req.body), oracle.now);
    } else if ReadsId(h) {
      ByIdKeepsOthersBooks(env, oracle, db, req, h, me, param, owner);
    }
  }

  /** The same, for the handlers that look a book up by `:id`. */
  lemma ByIdKeepsOthersBooks(env: Env, oracle: Oracle, db: Db, req: Request, h: Handler,
                             me: User, param: string, owner: UserId)
    requires ReadsId(h) && me.id != owner
    ensures Where(ById(env, oracle, db, req, h, me, param).store.books, OwnedBy(owner))
         == Where(db.books, OwnedBy(owner))
  {
    if env.castId(param).Some? {
      BookController.OthersWritesInvisible(db.books, owner, me.id, env.castId(param).value, BookFields(req.body), oracle.now);
    }
  }

  /** A handler run for someone other than `owner` leaves `owner`'s books as they were. */
  lemma InvokeKeepsOthersBooks(env: Env, oracle: Oracle, db: Db, req: Request, h: Handler,
                               caller: Option<User>, param: string, validated: set<Schema>, owner: UserId)
    requires SoundSchemas(env) && Fresh(db, oracle)
    requires Needs(h).Some? ==> Needs(h).value in validated
    requires forall s :: s in validated ==> Details(env, s, req.body) == []
    requires caller.Some? ==> caller.value.id != owner
    ensures Where(Invoke(env, oracle, db, req, h, caller, param, validated).store.books, OwnedBy(owner))
         == Where(db.books, OwnedBy(owner))
  {
    if caller.Some? && ReadsUser(h) {
      AsCallerKeepsOthersBooks(env, oracle, db, req, h, caller.value, param, owner);
    }
  }

  /** The same, for a whole chain in which `protect` only admits users other than `owner`. */
  lemma {:induction false} ChainKeepsOthersBooks(env: Env, oracle: Oracle, db: Db, req: Request, chain: seq<Step>,
                                                 caller: Option<User>, param: string, validated: set<Schema>, owner: UserId)
    requires SoundSchemas(env) && Fresh(db, oracle)
    requires Ready(chain, validated)
    requires forall s :: s in validated ==> Details(env, s, req.body) == []
    requires caller.Some? ==> caller.value.id != owner
    requires env.protect(req, db.users).Admit? ==> env.protect(req, db.users).user.id != owner
    ensures Where(RunChain(env, oracle, db, req, chain, caller, param, validated).db.books, OwnedBy(owner))
         == Where(db.books, OwnedBy(owner))
    decreases |chain|
  {
    if chain != [] {
      match chain[0]
      case Protect =>
        if env.protect(req, db.users).Admit? {
          ChainKeepsOthersBooks(env, oracle, db, req, chain[1..], Some(env.protect(req, db.users).user), param, validated, owner);
        }
      case Validate(s) =>
        if Details(env, s, req.body) == [] {
          ChainKeepsOthersBooks(env, oracle, db, req, chain[1..], caller, param, validated + {s}, owner);
        }
      case Handle(h) =>
        InvokeKeepsOthersBooks(env, oracle, db, req, h, caller, param, validated, owner);
    }
  }

  /**
    Ownership isolation end to end: a request whose bearer `protect` does not
    identify as `owner` leaves every book of `owner` exactly as it was.
   */
  lemma OthersCannotTouchMyBooks(env: Env, oracle: Oracle, db: Db, req: Request, owner: UserId)
    requires SoundSchemas(env) && Fresh(db, oracle)
    requires env.protect(req, db.users).Admit? ==> env.protect(req, db.users).user.id != owner
    ensures Where(Serve(env, oracle, db, req).db.books, OwnedBy(owner)) == Where(db.books, OwnedBy(owner))
  {
    if !(req.verb == GET && env.publicFile(req.path).Some?) {
      var hit := Dispatch(AppLayers, req.verb, req.path);
      if hit.Some? {
        AppWellWired();
        ChainKeepsOthersBooks(env, oracle, db, req, hit.value.route.chain, None, hit.value.param, {}, owner);
      }
    }
  }

  /** A two-step chain that validates and then handles runs the handler once the body passes. */
  lemma ValidThenHandle(env: Env, oracle: Oracle, db: Db, req: Request, s: Schema, h: Handler)
    requires SoundSchemas(env) && Fresh(db, oracle)
    requires Ready([Validate(s), Handle(h)], {}) && Needs(h) == Some(s)
    requires Details(env, s, req.body) == []
    ensures var e := Invoke(env, oracle, db, req, h, None, "", {s});
            RunChain(env, oracle, db, req, [Validate(s), Handle(h)], None, "", {}) == Finish(env, e.outcome, e.store)
  {
    var chain := [Validate(s), Handle(h)];
    assert chain[1..] == [Handle(h)];
  }

  /** The JSON body of a registration. */
  function RegisterBody(username: string, email: string, password: string): (b: Body)
    ensures StringAt(b, "username") == Some(username) && StringAt(b, "email") == Some(email)
    ensures StringAt(b, "password") == Some(password)
  {
    map["username" := JString(username), "email" := JString(email), "password" := JString(password)]
  }

  /** The JSON body of a login. */
  function LoginBody(email: string, password: string): (b: Body)
    ensures StringAt(b, "email") == Some(email) && StringAt(b, "password") == Some(password)
  {
    map["email" := JString(email), "password" := JString(password)]
  }

  /** A request dispatched to an auth route runs its handler once the body passes the route's schema. */
  lemma AccountServed(env: Env, oracle: Oracle, db: Db, req: Request, h: Handler, rt: Route)
    requires SoundSchemas(env) && Fresh(db, oracle)
    requires h == Register || h == Login
    requires req.verb == POST && Dispatch(AppLayers, req.verb, req.path) == Some(Hit(rt, ""))
    requires rt.chain == [Validate(Needs(h).value), Handle(h)]
    requires Details(env, Needs(h).value, req.body) == []
    ensures var e := Account(env, oracle, db, req.body, h);
            Serve(env, oracle, db, req) == Finish(env, e.outcome, e.store)
  {
    ServeRouted(env, oracle, db, req);
    ValidThenHandle(env, oracle, db, req, Needs(h).value, h);
  }

  /** POST /api/auth/register reaches the register route of authRoutes. */
  lemma RegisterDispatch()
    ensures Dispatch(AppLayers, POST, ["api", "auth", "register"]) == Some(Hit(AuthRoutes[0], ""))
  {
    var path := ["api", "auth", "register"];
    PrefixRouting(0, POST, path);
    assert path[2..] == ["register"];
    assert Accepts(POST, ["register"])(AuthRoutes[0]);
  }

  /** POST /api/auth/register with a body the schema accepts runs `register`. */
  lemma RegisterServed(env: Env, oracle: Oracle, db: Db, req: Request)
    requires SoundSchemas(env) && Fresh(db, oracle)
    requires req.verb == POST && req.path == ["api", "auth", "register"]
    requires env.registerSchema(req.body) == []
    ensures var e := Account(env, oracle, db, req.body, Register);
            Serve(env, oracle, db, req) == Finish(env, e.outcome, e.store)
  {
    RegisterDispatch();
    AccountServed(env, oracle, db, req, Register, AuthRoutes[0]);
  }

  /** POST /api/auth/login reaches the login route of authRoutes. */
  lemma LoginDispatch()
    ensures Dispatch(AppLayers, POST, ["api", "auth", "login"]) == Some(Hit(AuthRoutes[1], ""))
  {
    var path := ["api", "auth", "login"];
    PrefixRouting(0, POST, path);
    assert path[2..] == ["login"];
    assert !Accepts(POST, ["login"])(AuthRoutes[0]) && Accepts(POST, ["login"])(AuthRoutes[1]);
  }

  /** POST /api/auth/login with a body the schema accepts runs `login`. */
  lemma LoginServed(env: Env, oracle: Oracle, db: Db, req: Request)
    requires SoundSchemas(env) && Fresh(db, oracle)
    requires req.verb == POST && req.path == ["api", "auth", "login"]
    requires env.loginSchema(req.body) == []
    ensures var e := Account(env, oracle, db, req.body, Login);
            Serve(env, oracle, db, req) == Finish(env, e.outcome, e.store)
  {
    LoginDispatch();
    AccountServed(env, oracle, db, req, Login, AuthRoutes[1]);
  }

  /**
    Through the whole app: POST /api/auth/register with a fresh email answers
    201, and a later POST /api/auth/login with the same email and password
    answers 200 with a token that verifies to the new user's id for seven days.
   */
  lemma RegisterThenLoginServed(env: Env, o1: Oracle, o2: Oracle, db: Db,
                                username: string, email: string, password: string, later: int)
    requires SoundSchemas(env) && Sound(env.crypto) && Fresh(db, o1)
    requires env.registerSchema(RegisterBody(username, email, password)) == []
    requires env.loginSchema(LoginBody(email, password)) == []
    requires forall i :: 0 <= i < |db.users| ==> db.users[i].email != email
    requires Seconds(o2.now) <= later < Seconds(o2.now) + TokenLifetime
    ensures var r1 := Serve(env, o1, db, Request(POST, ["api", "auth", "register"], "/api/auth/register",
                                                 RegisterBody(username, email, password), None));
            && r1.response.status == 201
            && (Fresh(r1.db, o2) ==>
                 var r2 := Serve(env, o2, r1.db, Request(POST, ["api", "auth", "login"], "/api/auth/login",
                                                         LoginBody(email, password), None));
                 && r2.response.status == 200 && r2.response.body.TokenReply?
                 && env.crypto.verify(env.secret, r2.response.body.token, later)
                    == Some(Claims(o1.userId, Seconds(o2.now), Seconds(o2.now) + TokenLifetime)))
  {
    var req1 := Request(POST, ["api", "auth", "register"], "/api/auth/register", RegisterBody(username, email, password), None);
    var req2 := Request(POST, ["api", "auth", "login"], "/api/auth/login", LoginBody(email, password), None);
    RegisterServed(env, o1, db, req1);
    var r1 := Serve(env, o1, db, req1);
    var reg := AuthController.Register(db.users, username, email, password, env.crypto, o1.salt, o1.userId, o1.now);
    assert r1.db == db.(users := reg.store);
    if Fresh(r1.db, o2) {
      LoginServed(env, o2, r1.db, req2);
      AuthController.RegisterThenLogin(db.users, username, email, password, env.crypto, o1.salt, o1.userId, o1.now,
                                       env.secret, o2.now, later);
    }
  }
}

=== FILE: auth_controller.dfy ===
/**
  `register` and `login` over the user collection, with bcrypt and jsonwebtoken
  as the uninterpreted primitives of module Crypto.
 */
module AuthController {
  import opened Common
  import opened Collection
  import opened Users
  import opened Crypto
  import opened Responses

  const EmailExists := "Email already exists"
  const InvalidCredentials := "Invalid email or password"
  const Registered := "User registered successfully"
  const LoggedIn := "Login successful"

  /**
    `register`: a taken email is a 409 that stores nothing; otherwise exactly
    one user is appended, holding the bcrypt hash of the password, and the
    reply carries only its id, username and email.
   */
  function Register(users: seq<User>, username: string, email: string, password: string,
                    c: Primitives, salt: Salt, id: UserId, now: Millis): (e: Effect<seq<User>>)
    requires IdFresh(users, id)
    ensures (exists i :: 0 <= i < |users| && users[i].email == email) ==>
              e == Effect(Fail(409, EmailExists), users)
    ensures (forall i :: 0 <= i < |users| ==> users[i].email != email) ==>
              && e.store == users + [User(id, username, email, c.hash(password, salt), now)]
              && e.outcome == Sent(Response(201, UserReply(Registered, PublicUser(id, username, email))))
  {
    if FindOne(users, HasEmail(email)).Some? then
      Effect(Fail(409, EmailExists), users)
    else
      var user := User(id, username, email, c.hash(password, salt), now);
      Effect(Sent(Response(201, UserReply(Registered, Public(user)))), users + [user])
  }

  /**
    `login`: the token of the user `findOne({ email })` returns, if the password
    matches its hash; every failure is the same 401.
   */
  function Login(users: seq<User>, email: string, password: string,
                 c: Primitives, secret: string, now: Millis): (o: Outcome)
    ensures o.Thrown? ==> o == Fail(401, InvalidCredentials)
    ensures o.Sent? <==> FindOne(users, HasEmail(email)).Some?
                         && c.compare(password, FindOne(users, HasEmail(email)).value.password)
    ensures o.Sent? ==> o.response == Response(200, TokenReply(LoggedIn,
                          GenerateToken(c, secret, FindOne(users, HasEmail(email)).value.id, now)))
  {
    match FindOne(users, HasEmail(email))
    case None => Fail(401, InvalidCredentials)
    case Some(user) =>
      if !c.compare(password, user.password) then Fail(401, InvalidCredentials)
      else Sent(Response(200, TokenReply(LoggedIn, GenerateToken(c, secret, user.id, now))))
  }

  /** An unknown email and a wrong password are indistinguishable to the caller. */
  lemma LoginFailuresAlike(users: seq<User>, unknown: string, known: string, wrong: string, any: string,
                           c: Primitives, secret: string, now: Millis)
    requires forall i :: 0 <= i < |users| ==> users[i].email != unknown
    requires FindOne(users, HasEmail(known)).Some?
    requires !c.compare(wrong, FindOne(users, HasEmail(known)).value.password)
    ensures Login(users, unknown, any, c, secret, now) == Login(users, known, wrong, c, secret, now)
    ensures Login(users, unknown, any, c, secret, now) == Fail(401, InvalidCredentials)
  {
  }

  /** Register keeps ids and emails unique. */
  lemma RegisterKeepsValid(users: seq<User>, username: string, email: string, password: string,
                           c: Primitives, salt: Salt, id: UserId, now: Millis)
    requires Valid(users) && IdFresh(users, id)
    ensures Valid(Register(users, username, email, password, c, salt, id, now).store)
  {
  }

  /** The reply to register does not depend on the password in any way. */
  lemma RegisterReplyHidesPassword(users: seq<User>, username: string, email: string, p1: string, p2: string,
                                   c: Primitives, salt: Salt, id: UserId, now: Millis)
    requires IdFresh(users, id)
    ensures Register(users, username, email, p1, c, salt, id, now).outcome
         == Register(users, username, email, p2, c, salt, id, now).outcome
  {
  }

  /** Registering an email twice: the second attempt is a 409 whatever its username or password. */
  lemma RegisterTwice(users: seq<User>, u1: string, u2: string, email: string, p1: string, p2: string,
                      c: Primitives, s1: Salt, s2: Salt, id1: UserId, id2: UserId, t1: Millis, t2: Millis)
    requires IdFresh(users, id1) && id1 != id2 && IdFresh(users, id2)
    ensures var first := Register(users, u1, email, p1, c, s1, id1, t1).store;
            Register(first, u2, email, p2, c, s2, id2, t2) == Effect(Fail(409, EmailExists), first)
  {
    var first := Register(users, u1, email, p1, c, s1, id1, t1).store;
    if forall i :: 0 <= i < |users| ==> users[i].email != email {
      assert first[|users|].email == email;
    }
  }

  /**
    Round trip: after registering a fresh email, logging in with it and the same
    password succeeds with a token that verifies to the new user's id until it
    expires seven days after issuance.
   */
  lemma RegisterThenLogin(users: seq<User>, username: string, email: string, password: string,
                          c: Primitives, salt: Salt, id: UserId, t1: Millis, secret: string, t2: Millis, later: int)
    requires Sound(c)
    requires IdFresh(users, id)
    requires forall i :: 0 <= i < |users| ==> users[i].email != email
    requires Seconds(t2) <= later < Seconds(t2) + TokenLifetime
    ensures var o := Login(Register(users, username, email, password, c, salt, id, t1).store, email, password, c, secret, t2);
            && o.Sent? && o.response.status == 200 && o.response.body.TokenReply?
            && c.verify(secret, o.response.body.token, later) == Some(Claims(id, Seconds(t2), Seconds(t2) + TokenLifetime))
  {
    var user := User(id, username, email, c.hash(password, salt), t1);
    FindOneAppend(users, HasEmail(email), user);
    assert FindOne(users + [user], HasEmail(email)) == Some(user);
  }
}

=== FILE: book_controller.dfy ===
/**
  The five book handlers. Every query is scoped to the caller: a book is found
  only by the pair (id, owner), so another user's book and a missing one give
  the same 404. Ids arrive already cast; a malformed `:id` is handled by the
  router.
 */
module BookController {
  import opened Common
  import opened Collection
  import opened Books
  import opened Responses
  import opened Text

  const BookCreated := "Book created"
  const BookUpdated := "Book updated"
  const BookDeleted := "Book deleted"
  const BookNotFound := "Book not found"

  /** `createBook`: `available ?? true`, `Book.create`, 201 with the stored book. */
  function CreateBook(books: seq<Book>, caller: UserId, id: BookId, now: Millis, f: Fields): (e: Effect<seq<Book>>)
    requires IdFresh(books, id)
    ensures e.outcome.Sent? <==> Present(f.title) && Present(f.author)
    ensures e.outcome.Thrown? ==> e == Effect(Crash(ValidationFailed), books)
    ensures e.outcome.Sent? ==>
              && e.outcome.response.status == 201
              && e.outcome.response.body.BookReply?
              && e.outcome.response.body.message == BookCreated
              && e.store == books + [e.outcome.response.body.book]
    ensures e.outcome.Sent? ==>
              var b := e.outcome.response.body.book;
              && b.id == id && b.owner == caller && b.createdAt == now && b.updatedAt == now
              && b.title == Trim(f.title.value) && b.author == Trim(f.author.value)
              && b.category == (if f.category.Some? then Trim(f.category.value) else "")
              && b.available == (if f.available.Some? then f.available.value else true)
              && WellFormed(b)
  {
    var available := if f.available.Some? then f.available.value else true;
    match Create(id, caller, now, f.(available := Some(available)))
    case None => Effect(Crash(ValidationFailed), books)
    case Some(b) => Effect(Sent(Response(201, BookReply(BookCreated, b))), books + [b])
  }

  /** Newest first by `createdAt`. */
  ghost predicate NewestFirst(s: seq<Book>)
  {
    forall i, j :: 0 <= i < j < |s| ==> s[i].createdAt >= s[j].createdAt
  }

  /** Insert `b` ahead of the first book no newer than it. */
  function InsertNewest(b: Book, s: seq<Book>): (r: seq<Book>)
    ensures multiset(r) == multiset(s) + multiset{b}
    ensures |r| == |s| + 1 && (r[0] == b || (s != [] && r[0] == s[0]))
  {
    if s == [] || s[0].createdAt <= b.createdAt then [b] + s
    else
      assert s == [s[0]] + s[1..];
      [s[0]] + InsertNewest(b, s[1..])
  }

  /** Inserting into a newest-first sequence keeps it newest first. */
  lemma {:induction false} InsertNewestSorted(b: Book, s: seq<Book>)
    requires NewestFirst(s)
    ensures NewestFirst(InsertNewest(b, s))
  {
    if s != [] && s[0].createdAt > b.createdAt {
      var rest := InsertNewest(b, s[1..]);
      InsertNewestSorted(b, s[1..]);
      assert s[1..] != [] ==> s[1..][0] == s[1];
      assert rest[0].createdAt <= s[0].createdAt;
      assert forall j :: 0 <= j < |rest| ==> rest[j].createdAt <= rest[0].createdAt;
      assert InsertNewest(b, s) == [s[0]] + rest;
    }
  }

  /** `.sort({ createdAt: -1 })`; among equal timestamps, collection order is kept. */
  function SortNewest(s: seq<Book>): (r: seq<Book>)
    ensures NewestFirst(r)
    ensures multiset(r) == multiset(s)
  {
    if s == [] then []
    else
      assert s == [s[0]] + s[1..];
      InsertNewestSorted(s[0], SortNewest(s[1..]));
      InsertNewest(s[0], SortNewest(s[1..]))
  }

  /** `getMyBooks`: every book the caller owns and no other, newest first, with their count. */
  function GetMyBooks(books: seq<Book>, caller: UserId): (o: Outcome)
    ensures o.Sent? && o.response.status == 200 && o.response.body.BookList?
    ensures o.response.body.count == |o.response.body.books|
    ensures NewestFirst(o.response.body.books)
    ensures multiset(o.response.body.books) == multiset(Where(books, OwnedBy(caller)))
  {
    var mine := SortNewest(Where(books, OwnedBy(caller)));
    Sent(Response(200, BookList(|mine|, mine)))
  }

  /** `getBookById`: the caller's book with that id, or 404. */
  function GetBookById(books: seq<Book>, id: BookId, caller: UserId): (o: Outcome)
    ensures o.Sent? <==> exists b :: b in books && b.id == id && b.owner == caller
    ensures o.Thrown? ==> o == Fail(404, BookNotFound)
    ensures o.Sent? ==> o.response.status == 200 && o.response.body.BookOnly?
    ensures o.Sent? ==> var b := o.response.body.book; b in books && b.id == id && b.owner == caller
  {
    match FindOne(books, Keyed(id, caller))
    case None =>
      assert forall b :: b in books ==> !Keyed(id, caller)(b);
      Fail(404, BookNotFound)
    case Some(b) => Sent(Response(200, BookOnly(b)))
  }

  /**
    `updateBook`: 404 unless the caller owns the id; otherwise assign the
    supplied fields and save. A title or author that trimmed to "" fails the
    save's validation, and the error reaches errorHandler with status 200.
   */
  function UpdateBook(books: seq<Book>, id: BookId, caller: UserId, f: Fields, now: Millis): (e: Effect<seq<Book>>)
    ensures FindOne(books, Keyed(id, caller)).None? ==> e == Effect(Fail(404, BookNotFound), books)
    ensures FindOne(books, Keyed(id, caller)).Some? ==>
              !Savable(Assign(FindOne(books, Keyed(id, caller)).value, f, now)) ==>
              e == Effect(Crash(ValidationFailed), books)
    ensures e.outcome.Thrown? ==> e.store == books
    ensures e.outcome.Sent? <==>
              FindOne(books, Keyed(id, caller)).Some? && Savable(Assign(FindOne(books, Keyed(id, caller)).value, f, now))
    ensures e.outcome.Sent? ==>
              && FindOne(books, Keyed(id, caller)).Some?
              && var n := Assign(FindOne(books, Keyed(id, caller)).value, f, now);
              && Savable(n)
              && e.store == SaveFirst(books, Keyed(id, caller), n)
              && e.outcome.response == Response(200, BookReply(BookUpdated, n))
  {
    match FindOne(books, Keyed(id, caller))
    case None => Effect(Fail(404, BookNotFound), books)
    case Some(b) =>
      var n := Assign(b, f, now);
      if !Savable(n) then Effect(Crash(ValidationFailed), books)
      else Effect(Sent(Response(200, BookReply(BookUpdated, n))), SaveFirst(books, Keyed(id, caller), n))
  }

  /** `deleteBook`: 404 unless the caller owns the id; otherwise exactly that book is removed. */
  function DeleteBook(books: seq<Book>, id: BookId, caller: UserId): (e: Effect<seq<Book>>)
    ensures FindOne(books, Keyed(id, caller)).None? <==> e == Effect(Fail(404, BookNotFound), books)
    ensures e.outcome.Thrown? ==> e.outcome == Fail(404, BookNotFound)
    ensures e.outcome.Sent? ==>
              && FindOne(books, Keyed(id, caller)).Some?
              && |e.store| == |books| - 1
              && multiset(e.store) == multiset(books) - multiset{FindOne(books, Keyed(id, caller)).value}
              && e.outcome.response == Response(200, MessageReply(BookDeleted))
  {
    match FindOne(books, Keyed(id, caller))
    case None => Effect(Fail(404, BookNotFound), books)
    case Some(_) =>
      DeleteFirstMultiset(books, Keyed(id, caller));
      Effect(Sent(Response(200, MessageReply(BookDeleted))), DeleteFirst(books, Keyed(id, caller)))
  }

  /** The books of `caller`, as a set: exactly the stored books they own. */
  lemma MyBooksAreExactlyMine(books: seq<Book>, caller: UserId, b: Book)
    ensures b in GetMyBooks(books, caller).response.body.books <==> b in books && b.owner == caller
  {
    var mine := GetMyBooks(books, caller).response.body.books;
    assert b in mine <==> b in multiset(Where(books, OwnedBy(caller)));
    if b in books && b.owner == caller {
      var i :| 0 <= i < |books| && books[i] == b;
      assert OwnedBy(caller)(books[i]);
    }
  }

  /**
    What the caller can read depends only on the books they own: two
    collections that agree on them give the same answers to every read, and
    to every update or delete the caller attempts.
   */
  lemma ReadsSeeOnlyOwnBooks(b1: seq<Book>, b2: seq<Book>, caller: UserId, id: BookId, f: Fields, now: Millis)
    requires Where(b1, OwnedBy(caller)) == Where(b2, OwnedBy(caller))
    ensures GetMyBooks(b1, caller) == GetMyBooks(b2, caller)
    ensures GetBookById(b1, id, caller) == GetBookById(b2, id, caller)
    ensures UpdateBook(b1, id, caller, f, now).outcome == UpdateBook(b2, id, caller, f, now).outcome
    ensures DeleteBook(b1, id, caller).outcome == DeleteBook(b2, id, caller).outcome
  {
    FindOneWhere(b1, Keyed(id, caller), OwnedBy(caller));
    FindOneWhere(b2, Keyed(id, caller), OwnedBy(caller));
  }

  /** No write by `other` changes the books `caller` owns. */
  lemma OthersWritesInvisible(books: seq<Book>, caller: UserId, other: UserId, id: BookId, f: Fields, now: Millis)
    requires caller != other
    ensures IdFresh(books, id) ==>
              Where(CreateBook(books, other, id, now, f).store, OwnedBy(caller)) == Where(books, OwnedBy(caller))
    ensures Where(UpdateBook(books, id, other, f, now).store, OwnedBy(caller)) == Where(books, OwnedBy(caller))
    ensures Where(DeleteBook(books, id, other).store, OwnedBy(caller)) == Where(books, OwnedBy(caller))
  {
    if IdFresh(books, id) {
      var e := CreateBook(books, other, id, now, f);
      if e.outcome.Sent? {
        WhereAppendOutside(books, OwnedBy(caller), e.outcome.response.body.book);
      }
    }
    var u := UpdateBook(books, id, other, f, now);
    if u.outcome.Sent? {
      var n := Assign(FindOne(books, Keyed(id, other)).value, f, now);
      WhereSaveOutside(books, Keyed(id, other), OwnedBy(caller), n);
    }
    WhereDeleteOutside(books, Keyed(id, other), OwnedBy(caller));
  }

  /**
    A book that exists but belongs to someone else answers exactly like an id
    that does not exist: 404 "Book not found", and nothing changes.
   */
  lemma ForeignBookLooksMissing(books: seq<Book>, caller: UserId, foreign: BookId, missing: BookId, f: Fields, now: Millis)
    requires forall b :: b in books && b.id == foreign ==> b.owner != caller
    requires IdFresh(books, missing)
    ensures GetBookById(books, foreign, caller) == GetBookById(books, missing, caller) == Fail(404, BookNotFound)
    ensures UpdateBook(books, foreign, caller, f, now) == UpdateBook(books, missing, caller, f, now)
            == Effect(Fail(404, BookNotFound), books)
    ensures DeleteBook(books, foreign, caller) == DeleteBook(books, missing, caller)
            == Effect(Fail(404, BookNotFound), books)
  {
    assert FindOne(books, Keyed(foreign, caller)).None?;
    assert FindOne(books, Keyed(missing, caller)).None?;
  }

  /** Round trip: a created book is what the creator then reads back by its id. */
  lemma CreateThenGet(books: seq<Book>, caller: UserId, id: BookId, now: Millis, f: Fields)
    requires IdFresh(books, id)
    requires CreateBook(books, caller, id, now, f).outcome.Sent?
    ensures var e := CreateBook(books, caller, id, now, f);
            GetBookById(e.store, id, caller) == Sent(Response(200, BookOnly(e.outcome.response.body.book)))
  {
    var e := CreateBook(books, caller, id, now, f);
    var b := e.outcome.response.body.book;
    FindOneAppend(books, Keyed(id, caller), b);
    assert FindOne(books, Keyed(id, caller)).None? by {
      forall i | 0 <= i < |books| ensures !Keyed(id, caller)(books[i]) {
        assert books[i].id != id;
      }
    }
  }

  /** Round trip: after an update, reading the book returns what the update replied with. */
  lemma UpdateThenGet(books: seq<Book>, id: BookId, caller: UserId, f: Fields, now: Millis)
    requires UpdateBook(books, id, caller, f, now).outcome.Sent?
    ensures var e := UpdateBook(books, id, caller, f, now);
            GetBookById(e.store, id, caller) == Sent(Response(200, BookOnly(e.outcome.response.body.book)))
  {
    var n := Assign(FindOne(books, Keyed(id, caller)).value, f, now);
    FindOneAfterSave(books, Keyed(id, caller), n);
  }

  /** Round trip: after a delete, the book is gone for its owner. */
  lemma DeleteThenGet(books: seq<Book>, id: BookId, caller: UserId)
    requires UniqueIds(books)
    ensures GetBookById(DeleteBook(books, id, caller).store, id, caller) == Fail(404, BookNotFound)
  {
    assert AtMostOne(books, Keyed(id, caller));
    FindOneAfterDelete(books, Keyed(id, caller));
  }

  /** The caller's own list after an update: the updated book takes the old one's place, and nothing else moves. */
  lemma UpdateShowsInMyList(books: seq<Book>, id: BookId, caller: UserId, f: Fields, now: Millis)
    requires UpdateBook(books, id, caller, f, now).outcome.Sent?
    ensures var e := UpdateBook(books, id, caller, f, now);
            Where(e.store, OwnedBy(caller)) ==
              SaveFirst(Where(books, OwnedBy(caller)), Keyed(id, caller), e.outcome.response.body.book)
  {
    var n := Assign(FindOne(books, Keyed(id, caller)).value, f, now);
    assert OwnedBy(caller)(n);
    WhereSaveInside(books, Keyed(id, caller), OwnedBy(caller), n);
  }

  /** The caller's own list after a delete: exactly that book leaves it. */
  lemma DeleteShowsInMyList(books: seq<Book>, id: BookId, caller: UserId)
    ensures Where(DeleteBook(books, id, caller).store, OwnedBy(caller)) ==
              DeleteFirst(Where(books, OwnedBy(caller)), Keyed(id, caller))
  {
    WhereDeleteInside(books, Keyed(id, caller), OwnedBy(caller));
    if FindOne(books, Keyed(id, caller)).None? {
      FindOneWhere(books, Keyed(id, caller), OwnedBy(caller));
    }
  }

  /** An update that supplies no field saves the book unchanged. */
  lemma EmptyUpdateChangesNothing(books: seq<Book>, id: BookId, caller: UserId, now: Millis)
    ensures UpdateBook(books, id, caller, Fields(None, None, None, None), now).store == books
  {
    if FindOne(books, Keyed(id, caller)).Some? {
      var b := FindOne(books, Keyed(id, caller)).value;
      var i := SaveFirstAt(books, Keyed(id, caller), b);
      assert books[i := b] == books;
    }
  }

  /** createBook keeps the collection consistent. */
  lemma CreateKeepsConsistent(books: seq<Book>, caller: UserId, id: BookId, now: Millis, f: Fields)
    requires Consistent(books) && IdFresh(books, id)
    ensures Consistent(CreateBook(books, caller, id, now, f).store)
  {
    var e := CreateBook(books, caller, id, now, f);
    if e.outcome.Sent? {
      AppendKeepsConsistent(books, e.outcome.response.body.book);
    }
  }

  /** Appending a well-formed book under a fresh id keeps the collection consistent. */
  lemma AppendKeepsConsistent(books: seq<Book>, b: Book)
    requires Consistent(books) && IdFresh(books, b.id) && WellFormed(b)
    ensures Consistent(books + [b])
  {
    var after := books + [b];
    forall i, j | 0 <= i < j < |after| ensures after[i].id != after[j].id {
      if j < |books| {
        assert after[i] == books[i] && after[j] == books[j];
      } else {
        assert after[i] == books[i];
      }
    }
    forall i | 0 <= i < |after| ensures WellFormed(after[i]) {
      if i < |books| {
        assert after[i] == books[i];
      }
    }
  }

  /** updateBook keeps the collection consistent, given a clock that does not run backwards. */
  lemma UpdateKeepsConsistent(books: seq<Book>, id: BookId, caller: UserId, f: Fields, now: Millis)
    requires Consistent(books) && NotAfter(books, now)
    ensures Consistent(UpdateBook(books, id, caller, f, now).store)
  {
    var e := UpdateBook(books, id, caller, f, now);
    if e.outcome.Sent? {
      var b := FindOne(books, Keyed(id, caller)).value;
      var n := Assign(b, f, now);
      var i := SaveFirstAt(books, Keyed(id, caller), n);
      AssignWellFormed(books[i], f, now);
      ReplaceKeepsConsistent(books, i, n);
    }
  }

  /** Putting a well-formed book in place of one with the same id keeps the collection consistent. */
  lemma ReplaceKeepsConsistent(books: seq<Book>, i: nat, n: Book)
    requires Consistent(books) && i < |books|
    requires n.id == books[i].id && WellFormed(n)
    ensures Consistent(books[i := n])
  {
    var after := books[i := n];
    forall a, b | 0 <= a < b < |after| ensures after[a].id != after[b].id {
      assert after[a].id == books[a].id && after[b].id == books[b].id;
    }
  }

  /** deleteBook keeps the collection consistent. */
  lemma DeleteKeepsConsistent(books: seq<Book>, id: BookId, caller: UserId)
    requires Consistent(books)
    ensures Consistent(DeleteBook(books, id, caller).store)
  {
    var e := DeleteBook(books, id, caller);
    if e.outcome.Sent? {
      var k := DeleteFirstAt(books, Keyed(id, caller));
      RemoveKeepsConsistent(books, k);
    }
  }

  /** Taking one book out keeps the collection consistent. */
  lemma RemoveKeepsConsistent(books: seq<Book>, k: nat)
    requires Consistent(books) && k < |books|
    ensures Consistent(books[..k] + books[k + 1..])
  {
    var after := books[..k] + books[k + 1..];
    forall i | 0 <= i < |after| ensures after[i] == books[if i < k then i else i + 1] {
    }
  }
}

=== FILE: books.dfy ===
/**
  The `Book` Mongoose model: `title` and `author` are required and trimmed,
  `category` is trimmed and defaults to "", `available` defaults to true,
  `owner` is a required user reference, and `timestamps: true` maintains
  `createdAt` and `updatedAt`.
 */
module Books {
  import opened Common
  import opened Text

  datatype Book = Book(
    id: BookId,
    title: string,
    author: string,
    category: string,
    available: bool,
    owner: UserId,
    createdAt: Millis,
    updatedAt: Millis)

  /** The fields a request supplies; None is `undefined`. */
  datatype Fields = Fields(
    title: Option<string>,
    author: Option<string>,
    category: Option<string>,
    available: Option<bool>)

  /** Leading text of the message Mongoose throws when a required path is missing or empty. */
  const ValidationFailed := "Book validation failed"

  /** A Mongoose `required` string path rejects both a missing value and "". */
  predicate Present(v: Option<string>)
  {
    v.Some? && Trim(v.value) != ""
  }

  /** What every stored book satisfies. */
  ghost predicate WellFormed(b: Book)
  {
    && b.title != "" && Trim(b.title) == b.title
    && b.author != "" && Trim(b.author) == b.author
    && Trim(b.category) == b.category
    && b.createdAt <= b.updatedAt
  }

  /** `Book.create(fields)` at time `now`: cast, apply defaults, validate. */
  function Create(id: BookId, owner: UserId, now: Millis, f: Fields): (r: Option<Book>)
    ensures r.Some? <==> Present(f.title) && Present(f.author)
    ensures r.Some? ==> r.value.id == id && r.value.owner == owner
    ensures r.Some? ==> r.value.createdAt == now && r.value.updatedAt == now
    ensures r.Some? ==> r.value.title == Trim(f.title.value) && r.value.author == Trim(f.author.value)
    ensures r.Some? ==> r.value.category == (if f.category.Some? then Trim(f.category.value) else "")
    ensures r.Some? ==> r.value.available == (if f.available.Some? then f.available.value else true)
    ensures r.Some? ==> WellFormed(r.value)
  {
    if !Present(f.title) || !Present(f.author) then None
    else
      var b := Book(id, Trim(f.title.value), Trim(f.author.value),
                    if f.category.Some? then Trim(f.category.value) else "",
                    if f.available.Some? then f.available.value else true,
                    owner, now, now);
      TrimIdempotent(f.title.value);
      TrimIdempotent(f.author.value);
      TrimIdempotent(if f.category.Some? then f.category.value else "");
      Some(b)
  }

  /** Some supplied field, after the trim setter, differs from the stored value. */
  predicate Changes(b: Book, f: Fields)
  {
    || (f.title.Some? && Trim(f.title.value) != b.title)
    || (f.author.Some? && Trim(f.author.value) != b.author)
    || (f.category.Some? && Trim(f.category.value) != b.category)
    || (f.available.Some? && f.available.value != b.available)
  }

  /**
    Assign every supplied field through the trim setter. Unsupplied fields,
    identity, ownership and creation time keep their values, and `updatedAt`
    moves to `now` only when some field actually changed.
   */
  function Assign(b: Book, f: Fields, now: Millis): (r: Book)
    ensures r.id == b.id && r.owner == b.owner && r.createdAt == b.createdAt
    ensures r.title == (if f.title.Some? then Trim(f.title.value) else b.title)
    ensures r.author == (if f.author.Some? then Trim(f.author.value) else b.author)
    ensures r.category == (if f.category.Some? then Trim(f.category.value) else b.category)
    ensures r.available == (if f.available.Some? then f.available.value else b.available)
    ensures r.updatedAt == (if Changes(b, f) then now else b.updatedAt)
    ensures !Changes(b, f) ==> r == b
    ensures f == Fields(None, None, None, None) ==> r == b
  {
    var n := b.(title := if f.title.Some? then Trim(f.title.value) else b.title,
                author := if f.author.Some? then Trim(f.author.value) else b.author,
                category := if f.category.Some? then Trim(f.category.value) else b.category,
                available := if f.available.Some? then f.available.value else b.available);
    if n == b then b else n.(updatedAt := now)
  }

  /** `book.save()` runs the schema validators; a required path that trimmed to "" fails. */
  predicate Savable(b: Book)
  {
    b.title != "" && b.author != ""
  }

  /** A save that passes validation, at a time no earlier than the last one, keeps the book well formed. */
  lemma AssignWellFormed(b: Book, f: Fields, now: Millis)
    requires WellFormed(b) && now >= b.updatedAt
    requires Savable(Assign(b, f, now))
    ensures WellFormed(Assign(b, f, now))
  {
    var r := Assign(b, f, now);
    if f.title.Some? { TrimIdempotent(f.title.value); }
    if f.author.Some? { TrimIdempotent(f.author.value); }
    if f.category.Some? { TrimIdempotent(f.category.value); }
    assert Trim(r.title) == r.title;
    assert Trim(r.author) == r.author;
    assert Trim(r.category) == r.category;
  }

  /** The filter `{ owner }`. */
  function OwnedBy(owner: UserId): Book -> bool
  {
    (b: Book) => b.owner == owner
  }

  /** The filter `{ _id: id, owner }`. */
  function Keyed(id: BookId, owner: UserId): Book -> bool
  {
    (b: Book) => b.id == id && b.owner == owner
  }

  predicate IdFresh(books: seq<Book>, id: BookId)
  {
    forall i :: 0 <= i < |books| ==> books[i].id != id
  }

  /** No two stored books share an `_id`. */
  ghost predicate UniqueIds(books: seq<Book>)
  {
    forall i, j :: 0 <= i < j < |books| ==> books[i].id != books[j].id
  }

  /** What the collection satisfies between requests. */
  ghost predicate Consistent(books: seq<Book>)
  {
    UniqueIds(books) && forall i :: 0 <= i < |books| ==> WellFormed(books[i])
  }

  /** No stored book was touched later than `now`. */
  ghost predicate NotAfter(books: seq<Book>, now: Millis)
  {
    forall i :: 0 <= i < |books| ==> books[i].updatedAt <= now
  }
}

=== FILE: collection.dfy ===
/**
  A MongoDB collection as a sequence of documents in insertion order, with the
  four queries the controllers issue: `findOne(filter)`, `find(filter)`,
  `doc.save()` (replace the matched document) and `doc.deleteOne()`.
  A filter is a predicate over documents.
 */
module Collection {
  import opened Common

  /** `findOne(filter)`: the first document the filter accepts. */
  function FindOne<T>(s: seq<T>, p: T -> bool): (r: Option<T>)
    ensures r.Some? ==> r.value in s && p(r.value)
    ensures r.None? <==> forall i :: 0 <= i < |s| ==> !p(s[i])
  {
    if s == [] then None
    else if p(s[0]) then Some(s[0])
    else FindOne(s[1..], p)
  }

  /** `find(filter)`: every accepted document, in collection order. */
  function Where<T>(s: seq<T>, p: T -> bool): (r: seq<T>)
    ensures |r| <= |s|
    ensures forall i :: 0 <= i < |r| ==> p(r[i])
    ensures forall i :: 0 <= i < |s| && p(s[i]) ==> s[i] in r
    ensures forall x :: x in r ==> x in s
  {
    if s == [] then []
    else if p(s[0]) then [s[0]] + Where(s[1..], p)
    else Where(s[1..], p)
  }

  /** `save()` of the document `findOne(filter)` returned, now holding `x`. */
  function SaveFirst<T>(s: seq<T>, p: T -> bool, x: T): (r: seq<T>)
    ensures |r| == |s|
    ensures FindOne(s, p).None? ==> r == s
    ensures FindOne(s, p).Some? ==> x in r
    ensures FindOne(s, p).Some? ==>
      multiset(r) == multiset(s) - multiset{FindOne(s, p).value} + multiset{x}
  {
    if s == [] then []
    else
      assert s == [s[0]] + s[1..];
      if p(s[0]) then [x] + s[1..]
      else [s[0]] + SaveFirst(s[1..], p, x)
  }

  /** `deleteOne()` of the document `findOne(filter)` returned. */
  function DeleteFirst<T>(s: seq<T>, p: T -> bool): (r: seq<T>)
    ensures FindOne(s, p).None? ==> r == s
    ensures FindOne(s, p).Some? ==> |r| == |s| - 1
  {
    if s == [] then []
    else
      if p(s[0]) then s[1..]
      else [s[0]] + DeleteFirst(s[1..], p)
  }

  /** Searching with a filter that implies `q` finds the same document in `Where(s, q)`. */
  lemma {:induction false} FindOneWhere<T>(s: seq<T>, p: T -> bool, q: T -> bool)
    requires forall x :: p(x) ==> q(x)
    ensures FindOne(s, p) == FindOne(Where(s, q), p)
  {
    if s != [] {
      FindOneWhere(s[1..], p, q);
    }
  }

  /** Saving a document outside `q` over a document outside `q` leaves `Where(s, q)` alone. */
  lemma {:induction false} WhereSaveOutside<T>(s: seq<T>, p: T -> bool, q: T -> bool, x: T)
    requires forall y :: p(y) ==> !q(y)
    requires !q(x)
    ensures Where(SaveFirst(s, p, x), q) == Where(s, q)
  {
    if s != [] {
      WhereSaveOutside(s[1..], p, q, x);
      if !p(s[0]) {
        assert SaveFirst(s, p, x) == [s[0]] + SaveFirst(s[1..], p, x);
      }
    }
  }

  /** Saving inside `q` commutes with filtering by `q`. */
  lemma {:induction false} WhereSaveInside<T>(s: seq<T>, p: T -> bool, q: T -> bool, x: T)
    requires forall y :: p(y) ==> q(y)
    requires q(x)
    ensures Where(SaveFirst(s, p, x), q) == SaveFirst(Where(s, q), p, x)
  {
    if s != [] {
      WhereSaveInside(s[1..], p, q, x);
      if p(s[0]) {
        assert SaveFirst(s, p, x) == [x] + s[1..];
        assert Where([x] + s[1..], q) == [x] + Where(s[1..], q) by {
          assert ([x] + s[1..])[1..] == s[1..];
        }
      } else {
        assert SaveFirst(s, p, x) == [s[0]] + SaveFirst(s[1..], p, x);
        assert ([s[0]] + SaveFirst(s[1..], p, x))[1..] == SaveFirst(s[1..], p, x);
      }
    }
  }

  /** Deleting a document outside `q` leaves `Where(s, q)` alone. */
  lemma {:induction false} WhereDeleteOutside<T>(s: seq<T>, p: T -> bool, q: T -> bool)
    requires forall y :: p(y) ==> !q(y)
    ensures Where(DeleteFirst(s, p), q) == Where(s, q)
  {
    if s != [] {
      WhereDeleteOutside(s[1..], p, q);
      if !p(s[0]) {
        assert DeleteFirst(s, p) == [s[0]] + DeleteFirst(s[1..], p);
        assert ([s[0]] + DeleteFirst(s[1..], p))[1..] == DeleteFirst(s[1..], p);
      }
    }
  }

  /** Deleting inside `q` commutes with filtering by `q`. */
  lemma {:induction false} WhereDeleteInside<T>(s: seq<T>, p: T -> bool, q: T -> bool)
    requires forall y :: p(y) ==> q(y)
    ensures Where(DeleteFirst(s, p), q) == DeleteFirst(Where(s, q), p)
  {
    if s != [] {
      WhereDeleteInside(s[1..], p, q);
      if !p(s[0]) {
        assert DeleteFirst(s, p) == [s[0]] + DeleteFirst(s[1..], p);
        assert ([s[0]] + DeleteFirst(s[1..], p))[1..] == DeleteFirst(s[1..], p);
        if q(s[0]) {
          assert Where(s, q) == [s[0]] + Where(s[1..], q);
          assert ([s[0]] + Where(s[1..], q))[1..] == Where(s[1..], q);
        }
      }
    }
  }

  /** A document added outside `q` does not show up in `Where(_, q)`. */
  lemma {:induction false} WhereAppendOutside<T>(s: seq<T>, q: T -> bool, x: T)
    requires !q(x)
    ensures Where(s + [x], q) == Where(s, q)
  {
    if s == [] {
      assert Where([x], q) == Where([x][1..], q);
    } else {
      assert (s + [x])[1..] == s[1..] + [x];
      WhereAppendOutside(s[1..], q, x);
    }
  }

  /** A document added inside `q` is appended to `Where(_, q)`. */
  lemma {:induction false} WhereAppendInside<T>(s: seq<T>, q: T -> bool, x: T)
    requires q(x)
    ensures Where(s + [x], q) == Where(s, q) + [x]
  {
    if s == [] {
      assert Where([x], q) == [x] + Where([x][1..], q);
    } else {
      assert (s + [x])[1..] == s[1..] + [x];
      WhereAppendInside(s[1..], q, x);
    }
  }

  /** `findOne` over `s + [x]`: the old match if there is one, otherwise `x` if it matches. */
  lemma {:induction false} FindOneAppend<T>(s: seq<T>, p: T -> bool, x: T)
    ensures FindOne(s + [x], p) ==
      (if FindOne(s, p).Some? then FindOne(s, p) else if p(x) then Some(x) else None)
  {
    if s == [] {
      assert FindOne([x], p) == (if p(x) then Some(x) else FindOne([x][1..], p));
    } else {
      assert (s + [x])[1..] == s[1..] + [x];
      FindOneAppend(s[1..], p, x);
    }
  }

  /** When `x` is the only document the filter accepts, `findOne` returns it. */
  lemma FindOneUnique<T>(s: seq<T>, p: T -> bool, x: T)
    requires x in s && p(x)
    requires forall y :: y in s && p(y) ==> y == x
    ensures FindOne(s, p) == Some(x)
  {
  }

  /** `save()` rewrites the position of the first match and nothing else. */
  lemma {:induction false} SaveFirstAt<T>(s: seq<T>, p: T -> bool, x: T) returns (i: nat)
    requires FindOne(s, p).Some?
    ensures i < |s| && s[i] == FindOne(s, p).value
    ensures forall j :: 0 <= j < i ==> !p(s[j])
    ensures SaveFirst(s, p, x) == s[i := x]
  {
    if p(s[0]) {
      i := 0;
      assert SaveFirst(s, p, x) == [x] + s[1..];
    } else {
      var k := SaveFirstAt(s[1..], p, x);
      i := k + 1;
      assert SaveFirst(s, p, x) == [s[0]] + SaveFirst(s[1..], p, x);
    }
  }

  /** After `save()`, `findOne` with the same filter returns the saved document. */
  lemma {:induction false} FindOneAfterSave<T>(s: seq<T>, p: T -> bool, x: T)
    requires FindOne(s, p).Some? && p(x)
    ensures FindOne(SaveFirst(s, p, x), p) == Some(x)
  {
    if p(s[0]) {
      assert SaveFirst(s, p, x) == [x] + s[1..];
    } else {
      FindOneAfterSave(s[1..], p, x);
      assert SaveFirst(s, p, x) == [s[0]] + SaveFirst(s[1..], p, x);
    }
  }

  /** The filter accepts at most one document of `s`. */
  ghost predicate AtMostOne<T>(s: seq<T>, p: T -> bool)
  {
    forall i, j :: 0 <= i < j < |s| && p(s[i]) ==> !p(s[j])
  }

  /** After `deleteOne()` of the only match, `findOne` with the same filter finds nothing. */
  lemma {:induction false} FindOneAfterDelete<T>(s: seq<T>, p: T -> bool)
    requires AtMostOne(s, p)
    ensures FindOne(DeleteFirst(s, p), p).None?
  {
    if s != [] {
      if p(s[0]) {
        assert DeleteFirst(s, p) == s[1..];
        forall j | 0 <= j < |s| - 1 ensures !p(s[1..][j]) {
          assert s[1..][j] == s[j + 1];
        }
      } else {
        assert AtMostOne(s[1..], p) by {
          forall i, j | 0 <= i < j < |s| - 1 && p(s[1..][i]) ensures !p(s[1..][j]) {
            assert s[1..][i] == s[i + 1] && s[1..][j] == s[j + 1];
          }
        }
        FindOneAfterDelete(s[1..], p);
        var r := DeleteFirst(s[1..], p);
        assert DeleteFirst(s, p) == [s[0]] + r;
        assert ([s[0]] + r)[1..] == r;
      }
    }
  }

  /** Deleting the first match at position `i` closes the gap at `i`. */
  lemma {:induction false} DeleteFirstSplit<T>(s: seq<T>, p: T -> bool, i: nat)
    requires i < |s| && p(s[i])
    requires forall j :: 0 <= j < i ==> !p(s[j])
    ensures DeleteFirst(s, p) == s[..i] + s[i + 1..]
  {
    if i > 0 {
      var t := s[1..];
      assert !p(s[0]);
      assert DeleteFirst(s, p) == [s[0]] + DeleteFirst(t, p);
      DeleteFirstSplit(t, p, i - 1);
      assert [s[0]] + t[..i - 1] == s[..i];
      assert t[i..] == s[i + 1..];
    }
  }

  /** `deleteOne()` removes the position of the first match and nothing else. */
  lemma DeleteFirstAt<T>(s: seq<T>, p: T -> bool) returns (i: nat)
    requires FindOne(s, p).Some?
    ensures i < |s| && s[i] == FindOne(s, p).value
    ensures forall j :: 0 <= j < i ==> !p(s[j])
    ensures DeleteFirst(s, p) == s[..i] + s[i + 1..]
  {
    i := SaveFirstAt(s, p, FindOne(s, p).value);
    DeleteFirstSplit(s, p, i);
  }

  /** `deleteOne()` takes exactly one copy of the matched document out of the collection. */
  lemma DeleteFirstMultiset<T>(s: seq<T>, p: T -> bool)
    requires FindOne(s, p).Some?
    ensures multiset(DeleteFirst(s, p)) == multiset(s) - multiset{FindOne(s, p).value}
  {
    var i := DeleteFirstAt(s, p);
    var before, after := s[..i], s[i + 1..];
    assert s == s[..i] + [s[i]] + s[i + 1..];
    assert multiset(s) == multiset(before + [s[i]]) + multiset(after);
    assert multiset(before + [s[i]]) == multiset(before) + multiset{s[i]};
    assert multiset(DeleteFirst(s, p)) == multiset(before) + multiset(after);
  }
}

=== FILE: common.dfy ===
/**
  Shared vocabulary of the library backend model: identifiers, the parsed JSON
  request body, the error value a handler throws, and Joi-style validation details.
 */
module Common {

  datatype Option<T> = None | Some(value: T)

  /** MongoDB ObjectIds, abstracted to naturals. */
  type UserId = nat
  type BookId = nat

  /** Milliseconds since the epoch, as `Date.now()` reports it. */
  type Millis = nat

  /** A value of the parsed JSON body (`express.json()`); compound values are not inspected. */
  datatype Json =
    | JNull
    | JBool(b: bool)
    | JNumber(n: real)
    | JString(s: string)
    | JArray
    | JObject

  /** `req.body`: a key that is absent is `undefined` in JavaScript. */
  type Body = map<string, Json>

  /** The `Error` object a handler throws; only its message is observable. */
  datatype Error = Error(message: string)

  /** Why a Joi rule rejected one key of the body. */
  datatype Violation =
    | Required
    | NotString
    | NotBoolean
    | TooShort(min: nat)
    | TooLong(max: nat)
    | NotEmail
    | TooFewKeys(min: nat)

  /** One entry of Joi's `error.details` (collected with `abortEarly: false`). */
  datatype Detail = Detail(key: string, violation: Violation)

  /** The string stored under `key`, or None when it is absent or not a string. */
  function StringAt(body: Body, key: string): (r: Option<string>)
    ensures r.Some? <==> key in body && body[key].JString?
    ensures r.Some? ==> body[key] == JString(r.value)
  {
    if key in body && body[key].JString? then Some(body[key].s) else None
  }

  /** The boolean stored under `key`, or None when it is absent, null or not a boolean. */
  function BoolAt(body: Body, key: string): (r: Option<bool>)
    ensures r.Some? <==> key in body && body[key].JBool?
    ensures r.Some? ==> body[key] == JBool(r.value)
  {
    if key in body && body[key].JBool? then Some(body[key].b) else None
  }
}

=== FILE: crypto.dfy ===
/**
  bcrypt and jsonwebtoken as uninterpreted primitives. The model knows only the
  two facts the controllers rely on: a password matches its own hash, and a
  signed token verifies, under the same secret, until its expiry.
 */
module Crypto {
  import opened Common

  /** The salt `bcrypt.genSalt(10)` produced for one registration. */
  type Salt = nat

  type Token = string

  /** The JWT payload `jwt.sign({ id }, secret, { expiresIn: "7d" })` produces (seconds). */
  datatype Claims = Claims(id: UserId, iat: int, exp: int)

  datatype Primitives = Primitives(
    hash: (string, Salt) -> string,        // bcrypt.hash(password, salt)
    compare: (string, string) -> bool,      // bcrypt.compare(password, hash)
    sign: (string, Claims) -> Token,        // jwt.sign under a secret
    verify: (string, Token, int) -> Option<Claims>)  // jwt.verify under a secret at a time

  /** The library contracts the model assumes of the primitives. */
  ghost predicate Sound(c: Primitives)
  {
    && (forall p, salt :: c.compare(p, c.hash(p, salt)))
    && (forall key, claims, now :: c.verify(key, c.sign(key, claims), now)
          == (if now < claims.exp then Some(claims) else None))
  }

  /** `expiresIn: "7d"` in seconds. */
  const TokenLifetime: int := 7 * 24 * 60 * 60

  /** JWT times are whole seconds: `Math.floor(Date.now() / 1000)`. */
  function Seconds(now: Millis): int
  {
    now / 1000
  }

  /** `generateToken(id)`. */
  function GenerateToken(c: Primitives, secret: string, id: UserId, now: Millis): (t: Token)
    ensures Sound(c) ==> forall later :: Seconds(now) <= later < Seconds(now) + TokenLifetime ==>
      c.verify(secret, t, later) == Some(Claims(id, Seconds(now), Seconds(now) + TokenLifetime))
    ensures Sound(c) ==> forall later :: later >= Seconds(now) + TokenLifetime ==>
      c.verify(secret, t, later) == None
  {
    c.sign(secret, Claims(id, Seconds(now), Seconds(now) + TokenLifetime))
  }
}

=== FILE: dashboard.dfy ===
/**
  `escapeHtml` of the dashboard page: five chained `replaceAll` calls that make
  a string safe to interpolate into `innerHTML`.
 */
module Dashboard {

  /** `s.replaceAll(c, rep)` for a one-character pattern. */
  function ReplaceAll(s: string, c: char, rep: string): (r: string)
    ensures |rep| >= 1 ==> |r| >= |s|
    ensures c !in s ==> r == s
  {
    if s == [] then []
    else (if s[0] == c then rep else [s[0]]) + ReplaceAll(s[1..], c, rep)
  }

  /** The chain as the dashboard writes it, `&` first. */
  function EscapeHtml(s: string): (r: string)
    ensures |r| >= |s|
    ensures '&' !in s && '<' !in s && '>' !in s && '"' !in s && '\'' !in s ==> r == s
  {
    ReplaceAll(
      ReplaceAll(
        ReplaceAll(
          ReplaceAll(
            ReplaceAll(s, '&', "&amp;"),
            '<', "&lt;"),
          '>', "&gt;"),
        '"', "&quot;"),
      '\'', "&#039;")
  }

  predicate IsSpecial(c: char)
  {
    c == '&' || c == '<' || c == '>' || c == '"' || c == '\''
  }

  /** The entity each special character becomes. */
  function EscapeChar(c: char): (r: string)
    ensures |r| >= 1
    ensures IsSpecial(c) <==> r != [c]
  {
    match c
    case '&' => "&amp;"
    case '<' => "&lt;"
    case '>' => "&gt;"
    case '"' => "&quot;"
    case '\'' => "&#039;"
    case _ => [c]
  }

  /** Reference definition: escape character by character. */
  function EscapeEach(s: string): string
  {
    if s == [] then [] else EscapeChar(s[0]) + EscapeEach(s[1..])
  }

  predicate StartsWith(s: string, prefix: string)
  {
    |prefix| <= |s| && s[..|prefix|] == prefix
  }

  /** Position `i` of `t` opens one of the five entities. */
  predicate EntityAt(t: string, i: nat)
    requires i <= |t|
  {
    var rest := t[i..];
    StartsWith(rest, "&amp;") || StartsWith(rest, "&lt;") || StartsWith(rest, "&gt;")
    || StartsWith(rest, "&quot;") || StartsWith(rest, "&#039;")
  }

  lemma {:induction false} ReplaceAllConcat(a: string, b: string, c: char, rep: string)
    ensures ReplaceAll(a + b, c, rep) == ReplaceAll(a, c, rep) + ReplaceAll(b, c, rep)
  {
    if a == [] {
      assert a + b == b;
    } else {
      assert (a + b)[1..] == a[1..] + b;
      ReplaceAllConcat(a[1..], b, c, rep);
    }
  }

  lemma ReplaceOne(c: char, x: char, rep: string)
    ensures ReplaceAll([c], x, rep) == if c == x then rep else [c]
  {
    assert [c][1..] == [];
  }

  lemma EscapeOneChar(c: char)
    ensures EscapeHtml([c]) == EscapeChar(c)
  {
    ReplaceOne(c, '&', "&amp;");
    if c == '&' {
      assert '<' !in "&amp;" && '>' !in "&amp;" && '"' !in "&amp;" && '\'' !in "&amp;";
    } else {
      ReplaceOne(c, '<', "&lt;");
      if c == '<' {
        assert '>' !in "&lt;" && '"' !in "&lt;" && '\'' !in "&lt;";
      } else {
        ReplaceOne(c, '>', "&gt;");
        if c == '>' {
          assert '"' !in "&gt;" && '\'' !in "&gt;";
        } else {
          ReplaceOne(c, '"', "&quot;");
          if c == '"' {
            assert '\'' !in "&quot;";
          } else {
            ReplaceOne(c, '\'', "&#039;");
          }
        }
      }
    }
  }

  /** The sequential chain equals the per-character map, because `&` is replaced first. */
  lemma {:induction false} EscapeHtmlIsPerChar(s: string)
    ensures EscapeHtml(s) == EscapeEach(s)
  {
    if s != [] {
      EscapeHtmlConcat([s[0]], s[1..]);
      assert [s[0]] + s[1..] == s;
      EscapeOneChar(s[0]);
      EscapeHtmlIsPerChar(s[1..]);
    }
  }

  /** Escaping distributes over concatenation. */
  lemma EscapeHtmlConcat(a: string, b: string)
    ensures EscapeHtml(a + b) == EscapeHtml(a) + EscapeHtml(b)
  {
    var s1a, s1b := ReplaceAll(a, '&', "&amp;"), ReplaceAll(b, '&', "&amp;");
    ReplaceAllConcat(a, b, '&', "&amp;");
    var s2a, s2b := ReplaceAll(s1a, '<', "&lt;"), ReplaceAll(s1b, '<', "&lt;");
    ReplaceAllConcat(s1a, s1b, '<', "&lt;");
    var s3a, s3b := ReplaceAll(s2a, '>', "&gt;"), ReplaceAll(s2b, '>', "&gt;");
    ReplaceAllConcat(s2a, s2b, '>', "&gt;");
    var s4a, s4b := ReplaceAll(s3a, '"', "&quot;"), ReplaceAll(s3b, '"', "&quot;");
    ReplaceAllConcat(s3a, s3b, '"', "&quot;");
    ReplaceAllConcat(s4a, s4b, '\'', "&#039;");
  }

  lemma {:induction false} EscapeEachNoRaw(s: string)
    ensures forall i :: 0 <= i < |EscapeEach(s)| ==>
      EscapeEach(s)[i] != '<' && EscapeEach(s)[i] != '>' && EscapeEach(s)[i] != '"' && EscapeEach(s)[i] != '\''
  {
    if s != [] {
      EscapeEachNoRaw(s[1..]);
      var e, t := EscapeChar(s[0]), EscapeEach(s[1..]);
      forall i | 0 <= i < |e + t|
        ensures (e + t)[i] != '<' && (e + t)[i] != '>' && (e + t)[i] != '"' && (e + t)[i] != '\''
      {
        if i >= |e| { assert (e + t)[i] == t[i - |e|]; }
      }
    }
  }

  /** The output holds no raw `<`, `>`, `"` or `'`. */
  lemma NoRawMarkup(s: string)
    ensures forall i :: 0 <= i < |EscapeHtml(s)| ==>
      EscapeHtml(s)[i] != '<' && EscapeHtml(s)[i] != '>' && EscapeHtml(s)[i] != '"' && EscapeHtml(s)[i] != '\''
  {
    EscapeHtmlIsPerChar(s);
    EscapeEachNoRaw(s);
  }

  lemma {:induction false} EscapeEachAmpersands(s: string)
    ensures forall i :: 0 <= i < |EscapeEach(s)| && EscapeEach(s)[i] == '&' ==> EntityAt(EscapeEach(s), i)
  {
    if s != [] {
      EscapeEachAmpersands(s[1..]);
      var e, t := EscapeChar(s[0]), EscapeEach(s[1..]);
      forall i | 0 <= i < |e + t| && (e + t)[i] == '&' ensures EntityAt(e + t, i) {
        if i < |e| {
          assert i == 0;
          assert (e + t)[i..][..|e|] == e;
        } else {
          assert (e + t)[i] == t[i - |e|];
          assert (e + t)[i..] == t[i - |e|..];
        }
      }
    }
  }

  /** Every `&` of the output opens `&amp;`, `&lt;`, `&gt;`, `&quot;` or `&#039;`. */
  lemma AmpersandsOpenEntities(s: string)
    ensures forall i :: 0 <= i < |EscapeHtml(s)| && EscapeHtml(s)[i] == '&' ==> EntityAt(EscapeHtml(s), i)
  {
    EscapeHtmlIsPerChar(s);
    EscapeEachAmpersands(s);
  }

  lemma {:induction false} EscapeEachPlain(s: string)
    requires forall i :: 0 <= i < |s| ==> !IsSpecial(s[i])
    ensures EscapeEach(s) == s
  {
    if s != [] {
      EscapeEachPlain(s[1..]);
      assert [s[0]] + s[1..] == s;
    }
  }

  /** A string without the five special characters comes back unchanged. */
  lemma PlainTextUnchanged(s: string)
    requires forall i :: 0 <= i < |s| ==> !IsSpecial(s[i])
    ensures EscapeHtml(s) == s
  {
    EscapeHtmlIsPerChar(s);
    EscapeEachPlain(s);
  }

  lemma {:induction false} EscapeEachLength(s: string)
    ensures |EscapeEach(s)| >= |s|
    ensures |EscapeEach(s)| == |s| <==> forall i :: 0 <= i < |s| ==> !IsSpecial(s[i])
  {
    if s != [] {
      EscapeEachLength(s[1..]);
      assert forall i :: 1 <= i < |s| ==> s[i] == s[1..][i - 1];
    }
  }

  /** Escaping never shortens, and keeps the length exactly when nothing needed escaping. */
  lemma EscapeNeverShortens(s: string)
    ensures |EscapeHtml(s)| >= |s|
    ensures |EscapeHtml(s)| == |s| <==> forall i :: 0 <= i < |s| ==> !IsSpecial(s[i])
  {
    EscapeHtmlIsPerChar(s);
    EscapeEachLength(s);
  }
}

=== FILE: middleware.dfy ===
/**
  `validate(schema)`: run a Joi schema with `abortEarly: false`; pass the request
  on when there is no error, otherwise answer 400 with every detail message.
 */
module ValidateMiddleware {
  import opened Common
  import opened Responses

  datatype Verdict = Next | Respond(response: Response)

  /** `error.details.map((d) => d.message)`, with Joi's message formatter as `render`. */
  function Messages(details: seq<Detail>, render: Detail -> string): (r: seq<string>)
    ensures |r| == |details|
    ensures forall i :: 0 <= i < |details| ==> r[i] == render(details[i])
  {
    if details == [] then [] else [render(details[0])] + Messages(details[1..], render)
  }

  /** `validate(schema)` applied to a body whose schema reported `details`. */
  function Validate(details: seq<Detail>, render: Detail -> string): (v: Verdict)
    ensures v.Next? <==> details == []
    ensures v.Respond? ==> v.response.status == 400
    ensures v.Respond? ==> v.response.body.ValidationErrors?
                           && v.response.body.message == "Validation error"
    ensures v.Respond? ==> |v.response.body.errors| == |details|
    ensures v.Respond? ==> forall i :: 0 <= i < |details| ==>
                             v.response.body.errors[i] == render(details[i])
  {
    if details == [] then Next
    else Respond(Response(400, ValidationErrors("Validation error", Messages(details, render))))
  }
}

/**
  `notFound` and `errorHandler`, mounted last: every error a handler throws ends
  here and becomes `{ message, stack }`.
 */
module ErrorMiddleware {
  import opened Common
  import opened Responses

  /** `next(error)` after `res.status(...)`: the error and the status it travels with. */
  datatype Raised = Raised(error: Error, status: nat)

  /** `notFound`: 404 and the message "Not Found - <originalUrl>". */
  function NotFound(originalUrl: string): (r: Raised)
    ensures r.status == 404
    ensures |r.error.message| == |"Not Found - "| + |originalUrl|
    ensures r.error.message[..|"Not Found - "|] == "Not Found - "
    ensures r.error.message[|"Not Found - "|..] == originalUrl
  {
    Raised(Error("Not Found - " + originalUrl), 404)
  }

  /** `process.env.NODE_ENV === "production"`. */
  predicate IsProduction(nodeEnv: Option<string>)
  {
    nodeEnv == Some("production")
  }

  /**
    `errorHandler`: a status still at 200 becomes 500, any other status set
    before the throw is kept; the body carries the error's message, and its
    stack only outside production.
   */
  function ErrorHandler(err: Error, statusCode: nat, nodeEnv: Option<string>, stack: string): (r: Response)
    ensures r.status != 200
    ensures statusCode == 200 ==> r.status == 500
    ensures statusCode != 200 ==> r.status == statusCode
    ensures r.body.ErrorBody? && r.body.message == err.message
    ensures r.body.stack.None? <==> IsProduction(nodeEnv)
    ensures r.body.stack.Some? ==> r.body.stack.value == stack
  {
    var code := if statusCode == 200 then 500 else statusCode;
    Response(code, ErrorBody(err.message, if IsProduction(nodeEnv) then None else Some(stack)))
  }

  /** An unmatched request: `notFound` then `errorHandler` answer 404 "Not Found - <url>". */
  lemma NotFoundThenHandler(originalUrl: string, nodeEnv: Option<string>, stack: string)
    ensures ErrorHandler(NotFound(originalUrl).error, NotFound(originalUrl).status, nodeEnv, stack)
            == Response(404, ErrorBody("Not Found - " + originalUrl,
                                       if IsProduction(nodeEnv) then None else Some(stack)))
  {
  }
}

=== FILE: responses.dfy ===
/**
  What a handler can do with `res`: send a JSON (or text) body with a status,
  or throw an `Error` after having set `res.status(...)` — or not, in which case
  the status is still Express's default 200.
 */
module Responses {
  import opened Common
  import opened Users
  import opened Books
  import Crypto

  /** The JSON bodies the application sends. */
  datatype Payload =
    | Text(text: string)                                      // res.send(string)
    | StaticFile(content: string)                             // express.static
    | ErrorBody(message: string, stack: Option<string>)       // errorHandler
    | ValidationErrors(message: string, errors: seq<string>)  // validate
    | UserReply(message: string, user: PublicUser)           // register, updateProfile
    | TokenReply(message: string, token: Crypto.Token)        // login
    | ProfileReply(profile: Profile)                          // getProfile
    | BookReply(message: string, book: Book)                  // createBook, updateBook
    | BookOnly(book: Book)                                    // getBookById
    | BookList(count: nat, books: seq<Book>)                  // getMyBooks
    | MessageReply(message: string)                           // deleteBook

  datatype Response = Response(status: nat, body: Payload)

  /** Express's `res.statusCode` before any handler sets it. */
  const DefaultStatus: nat := 200

  datatype Outcome =
    | Sent(response: Response)
    | Thrown(status: nat, error: Error)   // `status` is `res.statusCode` at the throw

  /** A handler's outcome together with the collection it leaves behind. */
  datatype Effect<S> = Effect(outcome: Outcome, store: S)

  /** `res.status(status); throw new Error(message)`. */
  function Fail(status: nat, message: string): (o: Outcome)
  {
    Thrown(status, Error(message))
  }

  /** An error a library throws before any handler set a status: Express's default 200 stands. */
  function Crash(message: string): (o: Outcome)
  {
    Thrown(DefaultStatus, Error(message))
  }
}

=== FILE: routes.dfy ===
/**
  The three routers and the way `app.js` mounts them. A route is an HTTP method, a
  path pattern relative to its router's mount point, and the ordered chain of
  middleware Express runs for it: `protect`, `validate(schema)`, the handler.
  Paths are lists of segments: "/api/resource/42" is ["api", "resource", "42"].
 */
module Routes {
  import opened Common
  import opened Collection

  /** The methods the routers use, plus PATCH, which none of them accepts. */
  datatype Method = GET | POST | PUT | DELETE | PATCH

  datatype Schema = RegisterSchema | LoginSchema | UpdateProfileSchema | CreateBookSchema | UpdateBookSchema

  datatype Handler =
    | Register | Login
    | GetProfile | UpdateProfile
    | CreateBook | GetMyBooks | GetBookById | UpdateBook | DeleteBook
    | Root

  datatype Step = Protect | Validate(schema: Schema) | Handle(handler: Handler)

  /** A literal segment, or the `:id` parameter. */
  datatype Seg = Lit(name: string) | Param

  datatype Route = Route(verb: Method, pattern: seq<Seg>, chain: seq<Step>)

  /** `app.use(prefix, router)`; the root route is a layer with the empty prefix. */
  datatype Layer = Layer(prefix: seq<string>, routes: seq<Route>)

  /** The route Express picked and the value it bound to `:id` ("" when the pattern has none). */
  datatype Hit = Hit(route: Route, param: string)

  /** authRoutes.js */
  const AuthRoutes: seq<Route> := [
    Route(POST, [Lit("register")], [Validate(RegisterSchema), Handle(Register)]),
    Route(POST, [Lit("login")], [Validate(LoginSchema), Handle(Login)])
  ]

  /** userRoutes.js */
  const UserRoutes: seq<Route> := [
    Route(GET, [Lit("profile")], [Protect, Handle(GetProfile)]),
    Route(PUT, [Lit("profile")], [Protect, Validate(UpdateProfileSchema), Handle(UpdateProfile)])
  ]

  /** resourceRoutes.js */
  const ResourceRoutes: seq<Route> := [
    Route(POST, [], [Protect, Validate(CreateBookSchema), Handle(CreateBook)]),
    Route(GET, [], [Protect, Handle(GetMyBooks)]),
    Route(GET, [Param], [Protect, Handle(GetBookById)]),
    Route(PUT, [Param], [Protect, Validate(UpdateBookSchema), Handle(UpdateBook)]),
    Route(DELETE, [Param], [Protect, Handle(DeleteBook)])
  ]

  /** `app.get("/", ...)` */
  const RootRoute: Route := Route(GET, [], [Handle(Root)])

  /** The routing layers of app.js, in mounting order. */
  const AppLayers: seq<Layer> := [
    Layer(["api", "auth"], AuthRoutes),
    Layer(["api", "users"], UserRoutes),
    Layer(["api", "resource"], ResourceRoutes),
    Layer([], [RootRoute])
  ]

  /** Reference definition of a pattern accepting a path. */
  ghost predicate Fits(pattern: seq<Seg>, path: seq<string>)
  {
    && |pattern| == |path|
    && (forall k :: 0 <= k < |pattern| && pattern[k].Lit? ==> pattern[k].name == path[k])
    && (forall k :: 0 <= k < |pattern| && pattern[k].Param? ==> path[k] != "")
  }

  /** Express's path matching on segments; the result is the value bound to the first `:id`. */
  function Match(pattern: seq<Seg>, path: seq<string>): (r: Option<string>)
    ensures r.Some? <==> Fits(pattern, path)
    ensures r.Some? && pattern != [] && pattern[0].Param? ==> r.value == path[0]
    ensures r.Some? && Param !in pattern ==> r.value == ""
  {
    if |pattern| != |path| then None
    else if pattern == [] then Some("")
    else
      var rest := Match(pattern[1..], path[1..]);
      assert forall k :: 1 <= k < |pattern| ==> pattern[k] == pattern[1..][k - 1] && path[k] == path[1..][k - 1];
      match pattern[0]
      case Lit(name) => if name == path[0] then rest else None
      case Param =>
        if path[0] == "" || rest.None? then None
        else Some(path[0])
  }

  /** The filter a router applies to its routes for one request. */
  function Accepts(verb: Method, path: seq<string>): Route -> bool
  {
    (rt: Route) => rt.verb == verb && Match(rt.pattern, path).Some?
  }

  /** A router: the first route whose verb and pattern accept the request. */
  function Select(routes: seq<Route>, verb: Method, path: seq<string>): (r: Option<Hit>)
    ensures r.Some? ==> r.value.route in routes && r.value.route.verb == verb
    ensures r.Some? ==> Match(r.value.route.pattern, path) == Some(r.value.param)
    ensures r.None? <==> forall j :: 0 <= j < |routes| ==> !Accepts(verb, path)(routes[j])
  {
    match FindOne(routes, Accepts(verb, path))
    case None => None
    case Some(rt) => Some(Hit(rt, Match(rt.pattern, path).value))
  }

  /** `prefix` is a leading run of segments of `path`. */
  predicate Under(prefix: seq<string>, path: seq<string>)
  {
    |prefix| <= |path| && path[..|prefix|] == prefix
  }

  /**
    The app's layer walk: a layer whose prefix does not lead the path is
    skipped, a router that selects no route passes the request on, and the
    first route selected wins.
   */
  function Dispatch(layers: seq<Layer>, verb: Method, path: seq<string>): (r: Option<Hit>)
    ensures r.Some? ==> r.value.route.verb == verb
    ensures r.Some? ==> exists i :: 0 <= i < |layers| && r.value.route in layers[i].routes && Under(layers[i].prefix, path)
                          && Match(r.value.route.pattern, path[|layers[i].prefix|..]) == Some(r.value.param)
    ensures r.None? <==> forall i :: 0 <= i < |layers| && Under(layers[i].prefix, path) ==>
                          Select(layers[i].routes, verb, path[|layers[i].prefix|..]).None?
  {
    if layers == [] then None
    else
      var l := layers[0];
      var here := if Under(l.prefix, path) then Select(l.routes, verb, path[|l.prefix|..]) else None;
      if here.Some? then here
      else
        var r := Dispatch(layers[1..], verb, path);
        assert forall i :: 1 <= i < |layers| ==> layers[i] == layers[1..][i - 1];
        r
  }

  /** The schema a handler destructures its body under, if it reads one. */
  function Needs(h: Handler): Option<Schema>
  {
    match h
    case Register => Some(RegisterSchema)
    case Login => Some(LoginSchema)
    case UpdateProfile => Some(UpdateProfileSchema)
    case CreateBook => Some(CreateBookSchema)
    case UpdateBook => Some(UpdateBookSchema)
    case _ => None
  }

  /** A handler that reads `req.user`, which only `protect` sets. */
  predicate ReadsUser(h: Handler)
  {
    h !in {Register, Login, Root}
  }

  /** A handler that reads `req.params.id`. */
  predicate ReadsId(h: Handler)
  {
    h in {GetBookById, UpdateBook, DeleteBook}
  }

  /** A handler that can write to a collection. */
  predicate Writes(h: Handler)
  {
    h in {Register, UpdateProfile, CreateBook, UpdateBook, DeleteBook}
  }

  /**
    The chain reaches its handler only after validating every schema the
    handler relies on, given the schemas `validated` already passed.
   */
  predicate Ready(chain: seq<Step>, validated: set<Schema>)
    decreases |chain|
  {
    chain == [] ||
    match chain[0]
    case Protect => Ready(chain[1..], validated)
    case Validate(s) => Ready(chain[1..], validated + {s})
    case Handle(h) => Needs(h).None? || Needs(h).value in validated
  }

  /** A handler that reads `req.user` is reached only through `protect`. */
  predicate Guarded(chain: seq<Step>)
    decreases |chain|
  {
    chain == [] ||
    match chain[0]
    case Protect => true
    case Validate(_) => Guarded(chain[1..])
    case Handle(h) => !ReadsUser(h)
  }

  /** Some step of the chain is `protect`. */
  predicate RunsProtect(chain: seq<Step>)
  {
    Protect in chain
  }

  /** Every handler in the chain leaves the collections alone. */
  predicate ReadOnly(chain: seq<Step>)
  {
    forall k :: 0 <= k < |chain| && chain[k].Handle? ==> !Writes(chain[k].handler)
  }

  /** Two patterns that no path fits both: different lengths, or different literals at one place. */
  predicate Apart(p: seq<Seg>, q: seq<Seg>)
  {
    |p| != |q| || exists k :: 0 <= k < |p| && p[k].Lit? && q[k].Lit? && p[k].name != q[k].name
  }

  /** Apart patterns never accept the same path. */
  lemma ApartExclusive(p: seq<Seg>, q: seq<Seg>, path: seq<string>)
    requires Apart(p, q)
    ensures !(Match(p, path).Some? && Match(q, path).Some?)
  {
  }

  /** Within a router, two routes for the same verb never accept the same path. */
  ghost predicate Unambiguous(routes: seq<Route>)
  {
    forall i, j :: 0 <= i < j < |routes| && routes[i].verb == routes[j].verb ==>
      Apart(routes[i].pattern, routes[j].pattern)
  }

  /**
    Each (verb, path) pair selects at most one route of each router, so the
    order of the routes inside a router does not matter.
   */
  lemma RoutersUnambiguous()
    ensures Unambiguous(AuthRoutes) && Unambiguous(UserRoutes) && Unambiguous(ResourceRoutes)
  {
    assert AuthRoutes[0].pattern[0].name != AuthRoutes[1].pattern[0].name;
  }

  /** In an unambiguous router, the route selected is the only one accepting the request. */
  lemma SelectUnique(routes: seq<Route>, verb: Method, path: seq<string>, j: nat)
    requires Unambiguous(routes)
    requires j < |routes| && Accepts(verb, path)(routes[j])
    ensures Select(routes, verb, path).Some? && Select(routes, verb, path).value.route == routes[j]
  {
    var r := Select(routes, verb, path).value.route;
    var i :| 0 <= i < |routes| && routes[i] == r;
    if i != j {
      var a, b := if i < j then i else j, if i < j then j else i;
      ApartExclusive(routes[a].pattern, routes[b].pattern, path);
    }
  }

  /**
    What makes a route safe to run: it validates every schema its handler
    relies on, reaches a handler that reads `req.user` only through `protect`,
    binds `:id` for a handler that reads it, and only reads when it is a GET.
   */
  ghost predicate WellWired(rt: Route)
  {
    && Ready(rt.chain, {})
    && Guarded(rt.chain)
    && (forall k :: 0 <= k < |rt.chain| && rt.chain[k].Handle? && ReadsId(rt.chain[k].handler) ==> rt.pattern == [Param])
    && (rt.verb == GET ==> ReadOnly(rt.chain))
  }

  lemma AuthRoutesWired()
    ensures forall j :: 0 <= j < |AuthRoutes| ==> WellWired(AuthRoutes[j])
  {
    assert WellWired(AuthRoutes[0]);
    assert WellWired(AuthRoutes[1]);
  }

  lemma UserRoutesWired()
    ensures forall j :: 0 <= j < |UserRoutes| ==> WellWired(UserRoutes[j])
  {
    assert WellWired(UserRoutes[0]);
    assert WellWired(UserRoutes[1]);
  }

  lemma ResourceRoutesWired()
    ensures forall j :: 0 <= j < |ResourceRoutes| ==> WellWired(ResourceRoutes[j])
  {
    var r := ResourceRoutes;
    ValidatedWired(r[0], CreateBookSchema, CreateBook);
    GuardedWired(r[1], GetMyBooks);
    GuardedWired(r[2], GetBookById);
    ValidatedWired(r[3], UpdateBookSchema, UpdateBook);
    GuardedWired(r[4], DeleteBook);
  }

  /** `protect` then a handler that needs no schema. */
  lemma GuardedWired(rt: Route, h: Handler)
    requires rt.chain == [Protect, Handle(h)] && Needs(h).None?
    requires ReadsId(h) ==> rt.pattern == [Param]
    requires rt.verb == GET ==> !Writes(h)
    ensures WellWired(rt)
  {
    assert rt.chain[1..] == [Handle(h)];
  }

  /** `protect`, `validate` with the handler's schema, then the handler; never on GET. */
  lemma ValidatedWired(rt: Route, s: Schema, h: Handler)
    requires rt.chain == [Protect, Validate(s), Handle(h)] && (Needs(h).None? || Needs(h) == Some(s))
    requires ReadsId(h) ==> rt.pattern == [Param]
    requires rt.verb != GET
    ensures WellWired(rt)
  {
    assert rt.chain[1..] == [Validate(s), Handle(h)];
    assert rt.chain[1..][1..] == [Handle(h)];
  }

  /** Every route the app mounts is well wired. */
  lemma AppWellWired()
    ensures forall i, j :: 0 <= i < |AppLayers| && 0 <= j < |AppLayers[i].routes| ==> WellWired(AppLayers[i].routes[j])
  {
    AuthRoutesWired();
    UserRoutesWired();
    ResourceRoutesWired();
    assert WellWired(RootRoute);
  }

  /** Every book and profile route runs `protect` first; neither auth route runs it. */
  lemma ProtectPlacement()
    ensures forall rt :: rt in ResourceRoutes ==> rt.chain != [] && rt.chain[0] == Protect
    ensures forall rt :: rt in UserRoutes ==> rt.chain != [] && rt.chain[0] == Protect
    ensures forall rt :: rt in AuthRoutes ==> !RunsProtect(rt.chain)
  {
  }

  /** A layer whose prefix does not lead the path is skipped. */
  lemma DispatchSkips(layers: seq<Layer>, verb: Method, path: seq<string>)
    requires layers != [] && !Under(layers[0].prefix, path)
    ensures Dispatch(layers, verb, path) == Dispatch(layers[1..], verb, path)
  {
  }

  /** A layer whose prefix leads the path answers with its router's choice, or passes the request on. */
  lemma DispatchEnters(layers: seq<Layer>, verb: Method, path: seq<string>)
    requires layers != [] && Under(layers[0].prefix, path)
    ensures var here := Select(layers[0].routes, verb, path[|layers[0].prefix|..]);
            Dispatch(layers, verb, path) == if here.Some? then here else Dispatch(layers[1..], verb, path)
  {
  }

  /** A router with no route for a method selects nothing for it. */
  lemma SelectNoVerb(routes: seq<Route>, verb: Method, path: seq<string>)
    requires forall j :: 0 <= j < |routes| ==> routes[j].verb != verb
    ensures Select(routes, verb, path).None?
  {
  }

  /** Layers none of whose routes take a method dispatch nothing for it. */
  lemma {:induction false} DispatchNoVerb(layers: seq<Layer>, verb: Method, path: seq<string>)
    requires forall i, j :: 0 <= i < |layers| && 0 <= j < |layers[i].routes| ==> layers[i].routes[j].verb != verb
    ensures Dispatch(layers, verb, path).None?
  {
    if layers != [] {
      SelectNoVerb(layers[0].routes, verb, if Under(layers[0].prefix, path) then path[|layers[0].prefix|..] else path);
      DispatchNoVerb(layers[1..], verb, path);
    }
  }
}

=== FILE: text.dfy ===
/**
  JavaScript's `String.prototype.trim`, which Mongoose applies to every schema
  path declared with `trim: true`.
 */
module Text {

  /** ECMAScript WhiteSpace and LineTerminator code points, the set `trim` removes. */
  predicate IsSpace(c: char)
  {
    || c == ' ' || c == '\t' || c == '\n' || c == '\r'
    || c == '\U{000B}' || c == '\U{000C}' || c == '\U{00A0}' || c == '\U{FEFF}'
    || c == '\U{1680}' || ('\U{2000}' <= c <= '\U{200A}')
    || c == '\U{2028}' || c == '\U{2029}' || c == '\U{202F}' || c == '\U{205F}'
    || c == '\U{3000}'
  }

  predicate AllSpace(s: string)
  {
    forall i :: 0 <= i < |s| ==> IsSpace(s[i])
  }

  /** Number of whitespace characters that open `s`. */
  function LeadingSpace(s: string): (k: nat)
    ensures k <= |s|
    ensures AllSpace(s[..k])
    ensures k < |s| ==> !IsSpace(s[k])
  {
    if s == [] || !IsSpace(s[0]) then 0
    else
      var k := 1 + LeadingSpace(s[1..]);
      assert forall i :: 1 <= i < k ==> s[..k][i] == s[1..][..k - 1][i - 1];
      k
  }

  /** Number of whitespace characters that close `s`. */
  function TrailingSpace(s: string): (k: nat)
    ensures k <= |s|
    ensures AllSpace(s[|s| - k..])
    ensures k < |s| ==> !IsSpace(s[|s| - k - 1])
  {
    if s == [] || !IsSpace(s[|s| - 1]) then 0
    else
      var k := 1 + TrailingSpace(s[..|s| - 1]);
      assert s[|s| - k..] == s[..|s| - 1][|s| - k..] + [s[|s| - 1]];
      k
  }

  function Trim(s: string): (r: string)
    ensures |r| <= |s|
    ensures r != [] ==> !IsSpace(r[0]) && !IsSpace(r[|r| - 1])
  {
    var a := s[LeadingSpace(s)..];
    a[..|a| - TrailingSpace(a)]
  }

  /**
    `Trim` removes a whitespace prefix and a whitespace suffix and nothing else,
    and what remains neither starts nor ends with whitespace.
   */
  lemma TrimSpec(s: string)
    ensures exists i, j :: 0 <= i <= j <= |s| && Trim(s) == s[i..j]
                           && AllSpace(s[..i]) && AllSpace(s[j..])
    ensures Trim(s) != [] ==> !IsSpace(Trim(s)[0]) && !IsSpace(Trim(s)[|Trim(s)| - 1])
  {
    var i := LeadingSpace(s);
    var a := s[i..];
    var t := TrailingSpace(a);
    var j := i + |a| - t;
    assert a[..|a| - t] == s[i..j];
    assert s[j..] == a[|a| - t..];
    assert AllSpace(s[..i]) && AllSpace(s[j..]);
    assert Trim(s) == s[i..j];
  }

  lemma AllSpaceConcat(x: string, y: string)
    requires AllSpace(x) && AllSpace(y)
    ensures AllSpace(x + y)
  {
    forall k | 0 <= k < |x + y| ensures IsSpace((x + y)[k]) {
      if k < |x| { assert (x + y)[k] == x[k]; } else { assert (x + y)[k] == y[k - |x|]; }
    }
  }

  /** An all-whitespace string is one long whitespace prefix. */
  lemma {:induction false} LeadingSpaceOfAllSpace(s: string)
    requires AllSpace(s)
    ensures LeadingSpace(s) == |s|
  {
    if s != [] {
      assert AllSpace(s[1..]) by {
        forall k | 0 <= k < |s[1..]| ensures IsSpace(s[1..][k]) { assert s[1..][k] == s[k + 1]; }
      }
      LeadingSpaceOfAllSpace(s[1..]);
    }
  }

  /** A string trims to nothing exactly when it is all whitespace. */
  lemma TrimEmpty(s: string)
    ensures Trim(s) == [] <==> AllSpace(s)
  {
    var i := LeadingSpace(s);
    var a := s[i..];
    assert AllSpace(s[..i]);
    if AllSpace(s) {
      LeadingSpaceOfAllSpace(s);
      assert a == [];
    }
    if Trim(s) == [] {
      var t := TrailingSpace(a);
      assert a[|a| - t..] == a;
      assert s == s[..i] + a;
      AllSpaceConcat(s[..i], a);
    }
  }

  /** Trimming twice is trimming once: what Mongoose stores is already trimmed. */
  lemma TrimIdempotent(s: string)
    ensures Trim(Trim(s)) == Trim(s)
  {
    var r := Trim(s);
    TrimSpec(s);
    if r != [] {
      assert LeadingSpace(r) == 0;
      assert TrailingSpace(r) == 0;
    }
  }
}

=== FILE: user_controller.dfy ===
/**
  `getProfile` and `updateProfile`. The caller is the user `protect` attached to
  the request.
 */
module UserController {
  import opened Common
  import opened Collection
  import opened Users
  import opened Responses

  const NothingToUpdate := "Send username or email to update"
  const UserNotFound := "User not found"
  const EmailInUse := "Email already in use"
  const ProfileUpdated := "Profile updated"

  /** JavaScript truthiness of a string field: present and not "". */
  predicate Truthy(v: Option<string>)
  {
    v.Some? && v.value != ""
  }

  /** `getProfile`: id, username, email and createdAt of the caller, and nothing else. */
  function GetProfile(caller: User): (o: Outcome)
    ensures o.Sent? && o.response.status == 200 && o.response.body.ProfileReply?
    ensures o.response.body.profile.id == caller.id
    ensures o.response.body.profile.username == caller.username
    ensures o.response.body.profile.email == caller.email
    ensures o.response.body.profile.createdAt == caller.createdAt
  {
    Sent(Response(200, ProfileReply(Profile(caller.id, caller.username, caller.email, caller.createdAt))))
  }

  /** The record updateProfile saves: the truthy fields over the stored user. */
  function Updated(u: User, username: Option<string>, email: Option<string>): (r: User)
    ensures r.id == u.id && r.password == u.password && r.createdAt == u.createdAt
    ensures r.username == (if Truthy(username) then username.value else u.username)
    ensures r.email == (if Truthy(email) then email.value else u.email)
    ensures !Truthy(username) && !Truthy(email) ==> r == u
  {
    var renamed := if Truthy(username) then u.(username := username.value) else u;
    if Truthy(email) then renamed.(email := email.value) else renamed
  }

  /** The update asks for a new email that some stored user already holds. */
  predicate EmailTaken(users: seq<User>, me: User, email: Option<string>)
  {
    Truthy(email) && email.value != me.email && FindOne(users, HasEmail(email.value)).Some?
  }

  /**
    `updateProfile`. Both fields falsy: 400 before any lookup. Caller missing:
    404. A new email held by someone: 400, and nothing is saved, not even a
    username change. Otherwise the caller's record is saved with the truthy
    fields and the reply shows the saved username and email. Every failure
    leaves the collection as it was.
   */
  function UpdateProfile(users: seq<User>, callerId: UserId, username: Option<string>, email: Option<string>)
    : (e: Effect<seq<User>>)
    ensures !Truthy(username) && !Truthy(email) ==> e == Effect(Fail(400, NothingToUpdate), users)
    ensures (Truthy(username) || Truthy(email)) && FindOne(users, HasId(callerId)).None? ==>
              e == Effect(Fail(404, UserNotFound), users)
    ensures e.outcome.Thrown? ==> e.store == users
    ensures e.outcome.Thrown? ==>
              e.outcome in {Fail(400, NothingToUpdate), Fail(404, UserNotFound), Fail(400, EmailInUse)}
    ensures (Truthy(username) || Truthy(email)) && FindOne(users, HasId(callerId)).Some? ==>
              var me := FindOne(users, HasId(callerId)).value;
              && (e.outcome == Fail(400, EmailInUse) <==> EmailTaken(users, me, email))
              && (e.outcome.Sent? <==> !EmailTaken(users, me, email))
    ensures e.outcome.Sent? ==> FindOne(users, HasId(callerId)).Some?
    ensures e.outcome.Sent? ==>
              var u := Updated(FindOne(users, HasId(callerId)).value, username, email);
              && e.store == SaveFirst(users, HasId(callerId), u)
              && e.outcome.response == Response(200, UserReply(ProfileUpdated, Public(u)))
  {
    if !Truthy(username) && !Truthy(email) then
      Effect(Fail(400, NothingToUpdate), users)
    else
      match FindOne(users, HasId(callerId))
      case None => Effect(Fail(404, UserNotFound), users)
      case Some(user) =>
        var renamed := if Truthy(username) then user.(username := username.value) else user;
        if Truthy(email) && email.value != renamed.email then
          if FindOne(users, HasEmail(email.value)).Some? then
            Effect(Fail(400, EmailInUse), users)
          else
            Save(users, renamed.(email := email.value))
        else
          Save(users, renamed)
  }

  /** `user.save()` of the caller's record, then 200 "Profile updated" with the public fields. */
  function Save(users: seq<User>, u: User): (e: Effect<seq<User>>)
    ensures e.outcome == Sent(Response(200, UserReply(ProfileUpdated, Public(u))))
    ensures |e.store| == |users|
    ensures FindOne(users, HasId(u.id)).None? ==> e.store == users
    ensures FindOne(users, HasId(u.id)).Some? ==> u in e.store
  {
    Effect(Sent(Response(200, UserReply(ProfileUpdated, Public(u)))), SaveFirst(users, HasId(u.id), u))
  }

  /** Resending the caller's current email never runs the uniqueness check and never conflicts. */
  lemma SameEmailNeverConflicts(users: seq<User>, callerId: UserId, username: Option<string>)
    requires FindOne(users, HasId(callerId)).Some?
    requires FindOne(users, HasId(callerId)).value.email != ""
    ensures var e := UpdateProfile(users, callerId, username, Some(FindOne(users, HasId(callerId)).value.email));
            e.outcome.Sent?
  {
  }

  /** A new email held by another user: 400 "Email already in use", and nothing is saved. */
  lemma TakenEmailSavesNothing(users: seq<User>, callerId: UserId, username: Option<string>, other: User)
    requires FindOne(users, HasId(callerId)).Some?
    requires other in users && other.email != "" && other.email != FindOne(users, HasId(callerId)).value.email
    ensures UpdateProfile(users, callerId, username, Some(other.email)) == Effect(Fail(400, EmailInUse), users)
  {
    assert HasEmail(other.email)(other);
    EmailConflict(users, callerId, username, other.email);
  }

  lemma EmailConflict(users: seq<User>, callerId: UserId, username: Option<string>, email: string)
    requires FindOne(users, HasId(callerId)).Some?
    requires email != "" && email != FindOne(users, HasId(callerId)).value.email
    requires FindOne(users, HasEmail(email)).Some?
    ensures UpdateProfile(users, callerId, username, Some(email)) == Effect(Fail(400, EmailInUse), users)
  {
  }

  /**
    A successful update changes only the caller's username and email: every
    other user, and the caller's id, password hash and creation time, are kept.
   */
  lemma UpdateProfileFrame(users: seq<User>, callerId: UserId, username: Option<string>, email: Option<string>)
    requires UpdateProfile(users, callerId, username, email).outcome.Sent?
    ensures var after := UpdateProfile(users, callerId, username, email).store;
            var u := FindOne(users, HasId(callerId)).value;
            exists i :: 0 <= i < |users| && users[i] == u && |after| == |users|
              && (forall j :: 0 <= j < |users| && j != i ==> after[j] == users[j])
              && after[i].id == u.id && after[i].password == u.password && after[i].createdAt == u.createdAt
              && after[i].username == (if Truthy(username) then username.value else u.username)
              && after[i].email == (if Truthy(email) then email.value else u.email)
  {
    var u := FindOne(users, HasId(callerId)).value;
    var n := Updated(u, username, email);
    var i := SaveFirstAt(users, HasId(callerId), n);
    var after := UpdateProfile(users, callerId, username, email).store;
    assert after == users[i := n];
    assert 0 <= i < |users| && users[i] == u && after[i] == n;
    assert forall j :: 0 <= j < |users| && j != i ==> after[j] == users[j];
  }

  /** updateProfile keeps ids and emails unique. */
  lemma UpdateProfileKeepsValid(users: seq<User>, callerId: UserId, username: Option<string>, email: Option<string>)
    requires Valid(users)
    ensures Valid(UpdateProfile(users, callerId, username, email).store)
  {
    var e := UpdateProfile(users, callerId, username, email);
    if e.outcome.Sent? {
      var u := FindOne(users, HasId(callerId)).value;
      var n := Updated(u, username, email);
      var i := SaveFirstAt(users, HasId(callerId), n);
      assert e.store == users[i := n];
      if n.email != u.email {
        assert FindOne(users, HasEmail(n.email)).None?;
        forall j | 0 <= j < |users| ensures users[j].email != n.email {
          assert !HasEmail(n.email)(users[j]);
        }
      }
      RewriteKeepsValid(users, i, n);
    }
  }

  /** Rewriting one user under the same id, with its own email or one nobody holds, keeps the collection valid. */
  lemma RewriteKeepsValid(users: seq<User>, i: nat, n: User)
    requires Valid(users) && i < |users| && n.id == users[i].id
    requires n.email == users[i].email || forall j :: 0 <= j < |users| ==> users[j].email != n.email
    ensures Valid(users[i := n])
  {
    var after := users[i := n];
    forall a, b | 0 <= a < b < |after| ensures after[a].id != after[b].id && after[a].email != after[b].email {
      if a != i && b != i {
        assert after[a] == users[a] && after[b] == users[b];
      } else if a == i {
        assert after[b] == users[b];
      } else {
        assert after[a] == users[a];
      }
    }
  }
}

=== FILE: users.dfy ===
/**
  The user collection. The `User` Mongoose model is not part of this model; the
  record below holds the fields the controllers read and write.
 */
module Users {
  import opened Common
  import opened Collection

  /** A stored user; `password` holds the bcrypt hash, never the plaintext. */
  datatype User = User(id: UserId, username: string, email: string, password: string, createdAt: Millis)

  /** The `{ id, username, email }` projection register and updateProfile send back. */
  datatype PublicUser = PublicUser(id: UserId, username: string, email: string)

  /** The `{ id, username, email, createdAt }` projection getProfile sends back. */
  datatype Profile = Profile(id: UserId, username: string, email: string, createdAt: Millis)

  function Public(u: User): (p: PublicUser)
  {
    PublicUser(u.id, u.username, u.email)
  }

  /** The filter `{ email }`. */
  function HasEmail(email: string): User -> bool
  {
    (u: User) => u.email == email
  }

  /** The filter `{ _id: id }`. */
  function HasId(id: UserId): User -> bool
  {
    (u: User) => u.id == id
  }

  ghost predicate UniqueIds(users: seq<User>)
  {
    forall i, j :: 0 <= i < j < |users| ==> users[i].id != users[j].id
  }

  ghost predicate UniqueEmails(users: seq<User>)
  {
    forall i, j :: 0 <= i < j < |users| ==> users[i].email != users[j].email
  }

  /** What register and updateProfile together keep true of the collection. */
  ghost predicate Valid(users: seq<User>)
  {
    UniqueIds(users) && UniqueEmails(users)
  }

  predicate IdFresh(users: seq<User>, id: UserId)
  {
    forall i :: 0 <= i < |users| ==> users[i].id != id
  }

  /** Under unique emails, `findOne({ email })` returns the one user holding it. */
  lemma FindByEmailUnique(users: seq<User>, k: nat)
    requires UniqueEmails(users)
    requires k < |users|
    ensures FindOne(users, HasEmail(users[k].email)) == Some(users[k])
  {
    var e := users[k].email;
    forall y | y in users && HasEmail(e)(y) ensures y == users[k] {
      var j :| 0 <= j < |users| && users[j] == y;
      assert j == k;
    }
    FindOneUnique(users, HasEmail(e), users[k]);
  }
}

=== FILE: validators.dfy ===
/**
  The Joi schemas, as functions from a body to the list of details Joi reports
  with `abortEarly: false`: one detail per failing key, in schema order, then
  the object-level rules. Lengths count Unicode code points; Joi counts UTF-16
  code units, so the two differ for characters outside the Basic Multilingual
  Plane.
 */
module Joi {
  import opened Common

  /** `Joi.string().min(lo).max(hi)`, required or optional, on one key. */
  function CheckString(body: Body, key: string, lo: nat, hi: nat, required: bool): (d: seq<Detail>)
    ensures |d| <= 1
    ensures d == [] <==> if key in body then body[key].JString? && lo <= |body[key].s| <= hi else !required
    ensures d != [] ==> d[0].key == key
  {
    if key !in body then (if required then [Detail(key, Required)] else [])
    else match body[key]
      case JString(s) =>
        if |s| < lo then [Detail(key, TooShort(lo))]
        else if |s| > hi then [Detail(key, TooLong(hi))]
        else []
      case _ => [Detail(key, NotString)]
  }

  /** `Joi.boolean()`, optional, on one key. */
  function CheckBoolean(body: Body, key: string): (d: seq<Detail>)
    ensures |d| <= 1
    ensures d == [] <==> key !in body || body[key].JBool?
    ensures d != [] ==> d[0] == Detail(key, NotBoolean)
  {
    if key in body && !body[key].JBool? then [Detail(key, NotBoolean)] else []
  }

  /** `Joi.string().email()`, optional, with the address grammar abstracted as `isEmail`. */
  function CheckEmail(body: Body, key: string, isEmail: string -> bool): (d: seq<Detail>)
    ensures |d| <= 1
    ensures d == [] <==> key !in body || (body[key].JString? && isEmail(body[key].s))
    ensures d != [] ==> d[0].key == key
  {
    if key !in body then []
    else match body[key]
      case JString(s) => if isEmail(s) then [] else [Detail(key, NotEmail)]
      case _ => [Detail(key, NotString)]
  }

  lemma EmptyHasNoKeys(body: Body)
    ensures body == map[] <==> |body.Keys| == 0
  {
    if body != map[] {
      var k :| k in body.Keys;
    }
  }

  /** `.min(n)` on an object: at least `n` keys. */
  function CheckKeys(body: Body, n: nat): (d: seq<Detail>)
    ensures d == [] <==> |body.Keys| >= n
  {
    if |body.Keys| < n then [Detail("value", TooFewKeys(n))] else []
  }
}

module BookValidator {
  import opened Common
  import opened Joi

  /** `createBookSchema`: passes exactly the acceptable bodies, one detail per failing key. */
  function CreateBookDetails(body: Body): (d: seq<Detail>)
    ensures d == [] <==> CreateBookAcceptable(body)
    ensures |d| <= 4
    ensures forall i :: 0 <= i < |d| ==> d[i].key in ["title", "author", "category", "available"]
  {
    CheckString(body, "title", 2, 100, true)
    + CheckString(body, "author", 2, 100, true)
    + CheckString(body, "category", 2, 50, true)
    + CheckBoolean(body, "available")
  }

  /**
    `updateBookSchema`: every key optional with the create bounds, and at least
    one key, so the empty body fails on the key count alone.
   */
  function UpdateBookDetails(body: Body): (d: seq<Detail>)
    ensures d == [] <==> UpdateBookAcceptable(body)
    ensures body == map[] ==> d == [Detail("value", TooFewKeys(1))]
  {
    EmptyHasNoKeys(body);
    CheckString(body, "title", 2, 100, false)
    + CheckString(body, "author", 2, 100, false)
    + CheckString(body, "category", 2, 50, false)
    + CheckBoolean(body, "available")
    + CheckKeys(body, 1)
  }

  /** A present string of length within [lo, hi]. */
  predicate StringWithin(body: Body, key: string, lo: nat, hi: nat)
  {
    key in body && body[key].JString? && lo <= |body[key].s| <= hi
  }

  predicate BooleanOrAbsent(body: Body, key: string)
  {
    key !in body || body[key].JBool?
  }

  /** The bodies `createBookSchema` admits, stated key by key. */
  predicate CreateBookAcceptable(body: Body)
  {
    && StringWithin(body, "title", 2, 100)
    && StringWithin(body, "author", 2, 100)
    && StringWithin(body, "category", 2, 50)
    && BooleanOrAbsent(body, "available")
  }

  /** The bodies `updateBookSchema` admits, stated key by key. */
  predicate UpdateBookAcceptable(body: Body)
  {
    && ("title" in body ==> StringWithin(body, "title", 2, 100))
    && ("author" in body ==> StringWithin(body, "author", 2, 100))
    && ("category" in body ==> StringWithin(body, "category", 2, 50))
    && BooleanOrAbsent(body, "available")
    && body != map[]
  }

}

module UserValidator {
  import opened Common
  import opened Joi

  /**
    `updateProfileSchema`: optional username of length [3, 30], optional email;
    there is no `.min(1)`, so the empty body passes.
   */
  function UpdateProfileDetails(body: Body, isEmail: string -> bool): (d: seq<Detail>)
    ensures d == [] <==> UpdateProfileAcceptable(body, isEmail)
    ensures body == map[] ==> d == []
  {
    CheckString(body, "username", 3, 30, false) + CheckEmail(body, "email", isEmail)
  }

  /** The bodies `updateProfileSchema` admits, stated key by key. */
  predicate UpdateProfileAcceptable(body: Body, isEmail: string -> bool)
  {
    && ("username" in body ==> body["username"].JString? && 3 <= |body["username"].s| <= 30)
    && ("email" in body ==> body["email"].JString? && isEmail(body["email"].s))
  }
}
